=== FILE: README.md ===
# stacc, sequentially

A Dafny model of the sequential behaviour of the `stacc` crate's five
concurrent containers:

- the bounded double-buffer stack `Stacc` (`src/stacc.rs`), module
  `DoubleBuffer`;
- the 256-slot single-producer/single-consumer ring (`src/spsc_queue.rs`),
  module `SpscQueue`;
- the hazard-pointer stack `LockFreeStacc` (`src/stacc_lockfree_hp.rs`),
  module `HazardStack`;
- the lock-free stack with per-node in-flight counters
  (`src/stacc_lockfree.rs`), module `RefcountStack`;
- the epoch bookkeeping of `src/stacc_lockfree_ebr.rs`, module
  `EpochReclaim`.

Each container is an immutable record with pure step functions. Every
atomic read-modify-write is one step and every compare-and-swap succeeds,
except where a function takes the interference as a parameter
(`RefcountStack.PopAttempt`, `RefcountStack.CasLoopAsWritten`). A Rust
panic (an out-of-bounds index or a failed `assert_eq!`) is the `Panic` case
of `Outcome`.

Heap memory is a map from abstract node addresses to node contents. A
never-used address stands for `Box::new`, and removing an address from the
map stands for freeing its box. Both linked stacks carry an ownership
invariant that a whole `System` keeps between operations: every allocated
box is owned in exactly one place. The owner may be the stack itself, a
handle's retired list, cache or local garbage, or the shared list of boxes
handed over by departed handles. Teardown then frees every box exactly once.

`usize` counters that wrap (`len`, the node counters) are reduced modulo
2^64 (module `Usize`). `u8` epochs are `bv8`, and `isize` buffer counters
are `int`. The helper modules are:

- `Wrappers`: `Option` and `Outcome`;
- `Sequences`: reversal, and the reference definition `Pops`/`Remains` of
  what `k` pops return and leave;
- `LinkedList`: null-terminated lists through a successor map, and
  multiset algebra.

The model follows the code. Where the code is evidently wrong (see
Findings), both forms are modelled: a member named `…AsWritten` for the code,
and a corrected member. The system-level lemmas of `HazardStack` rest on
corrected forms in two places:

- The hazard-pointer `push` goes through the corrected `GetNode`, which fills a
  reused box with the new node. As written, `get_node` hands back the cached
  box untouched, so the push publishes its old payload and successor.
  `HazardStack.PushAsWritten` models that. Every invariant and LIFO lemma of
  `HazardStack` is about the corrected push.
- The hazard table has 32 slots (`src/stacc_lockfree_hp.rs:11-12`), but
  `clone` never checks a handle's number against it. The extra handle panics
  on its first `pop`. `HazardStack.CloneAsWritten` models the code, and
  `HazardStack.Clone` checks the bound when the handle is created.
  `HazardStack.Inv` requires the counter to be at most 32, and only the
  checked clone keeps that true. So every invariant lemma of `HazardStack`
  is about the checked clone. That includes the "does not panic" facts of
  `PopKeepsInv`, `SysPop` and `DropKeepsInv`.

The `EpochReclaim` frame and grace-period lemmas are stated both for the
code's `mark_use` (`MarkUseKeepsAsWritten`, `GracePeriodAsWritten`) and for
the corrected one (`MarkUseKeeps`, `GracePeriod`).

## Model

| member | source | states |
|---|---|---|
| DoubleBuffer.NewBuffer | src/stacc.rs:21-27 | a new buffer has `n` slots, counter 0 and no elements |
| DoubleBuffer.BufferPop | src/stacc.rs:29-46 | `None` exactly when the counter is 0, and then the buffer is unchanged (the -1 is clamped back to 0); otherwise the element at index `len - 1` comes back and the buffer's contents lose exactly that last element (LIFO within a buffer) |
| DoubleBuffer.BufferPush | src/stacc.rs:66-86 | `Some(x)` comes back exactly when the buffer is full, and then the buffer is unchanged (the counter is clamped back to `maxlen`); otherwise `x` is written at index `oldlen` and the contents grow by exactly `x` |
| DoubleBuffer.New | src/stacc.rs:97-103 | a new stack is valid, has capacity `n` per buffer and holds nothing |
| DoubleBuffer.SwapStacks | src/stacc.rs:105-118 | the two buffers exchange roles with their lengths; the multiset of stored elements and the capacity are preserved |
| DoubleBuffer.Push | src/stacc.rs:120-143 | the value comes back iff both buffers are full, and then nothing changes; otherwise the stored multiset gains exactly `x` and the count grows by 1 |
| DoubleBuffer.Pop | src/stacc.rs:146-167 | `None` iff both buffers are empty, and then nothing changes; otherwise the returned element is removed and nothing else, and it is the pop side's top, or the push side's top when the pop side was empty; in the first case the push side is unchanged and the pop side keeps its elements below the top in order, in the second the drained buffer becomes the push side and the pop side holds the old push side's elements below its top in order |
| DoubleBuffer.Len | src/stacc.rs:170-178 | the sum of the two clamped counters equals the number of stored elements and is at most twice the capacity |
| DoubleBuffer.PushRetrySucceeds | src/stacc.rs:138-141 | after a push finds its side full and swaps, the retried buffer push accepts the value, so `push` recurses at most once |
| DoubleBuffer.PopRetrySucceeds | src/stacc.rs:162-165 | after a pop finds its side empty and swaps, the retried buffer pop returns a value, so `pop` recurses at most once |
| DoubleBuffer.PushAllIntoPushers | src/stacc.rs:120-125 | with the pop side empty, pushes that fit are all accepted and land in the push side in order |
| DoubleBuffer.DrainPoppers | src/stacc.rs:146-150 | with the push side empty, popping as many times as the pop side holds returns its elements top first and leaves both sides empty |
| DoubleBuffer.FillThenDrain | src/stacc.rs:120-167 | on a new stack of capacity `n`, up to `n` pushes succeed, as many pops return the values in reverse, and one more pop finds the stack empty |
| DoubleBuffer.SingleTest | tests/tests.rs:4-15 | capacity 4, push 0..3: every push succeeds and four pops give 3, 2, 1, 0 |
| DoubleBuffer.NotLifoAcrossSwap | src/stacc.rs:138-141 | with capacity 1, push `a` then `b` and the next pop returns `a`: after a swap the stack is not LIFO |
| SpscQueue.Len | src/spsc_queue.rs:16-23 | `tail.wrapping_sub(head) & 255` equals the number of queued elements and is below 256 |
| SpscQueue.Pop | src/spsc_queue.rs:55-71 | `None` iff `head == tail`, and then nothing changes; otherwise `head` moves to `(head + 1) mod 256`, `tail` and the slots stay, the oldest element comes back and the queue loses exactly it |
| SpscQueue.Push | src/spsc_queue.rs:87-105 | the value comes back unchanged iff 255 elements are queued; otherwise `x` is written to slot `(tail + 1) mod 256`, `tail` moves there, `head` stays, and `x` joins the back of the queue |
| SpscQueue.Drop | src/spsc_queue.rs:26-39 | walking from `tail` back to `head + 1` reads every queued element exactly once, newest first |
| SpscQueue.PushAllAppends | src/spsc_queue.rs:87-105 | pushes that fit are all accepted and append their values in order |
| SpscQueue.PopNTakesOldest | src/spsc_queue.rs:55-71 | `k` pops return what `k` pops from the front of the queue's contents return, oldest first and then `None`, and leave exactly the rest |
| SpscQueue.Fifo | src/spsc_queue.rs:55-105 | on an empty ring up to 255 pushes succeed, as many pops return them in push order and empty the ring, and with 255 queued the next push is refused |
| HazardStack.New | src/stacc_lockfree_hp.rs:94-103 | a new stack is empty with no allocated box, and its handle takes number 0 and leaves the counter at 1 |
| HazardStack.GetNodeAsWritten | src/stacc_lockfree_hp.rs:105-110 | on a cache hit the last cached box comes back with its old contents and the heap is untouched; on a miss a fresh box holds the new node |
| HazardStack.GetNode | src/stacc_lockfree_hp.rs:105-110 | corrected form: the returned box always holds the new node; a cache hit reuses the last cached box and allocates nothing |
| HazardStack.PrepareForReuse | src/stacc_lockfree_hp.rs:111-113 | the box joins the end of the cache and nothing else in the handle changes |
| HazardStack.SplitHazardous | src/stacc_lockfree_hp.rs:119-130 | the retired list splits into pointers in the hazard set and pointers outside it, with nothing lost or duplicated |
| HazardStack.Scan | src/stacc_lockfree_hp.rs:115-138 | every retired pointer absent from the hazard table moves to the end of the cache and every present one stays retired; the handle's boxes are the same multiset |
| HazardStack.RetireNode | src/stacc_lockfree_hp.rs:140-145 | while the retired list stays below 42 the box is just appended to it and nothing else changes; at 42 the extended handle is scanned; in both cases the handle gains exactly the retired box, and afterwards fewer than 42 pointers are retired, or every retired one is a hazard |
| HazardStack.Push | src/stacc_lockfree_hp.rs:147-169 | corrected form (through `GetNode`): the new node becomes `top`, holding `data` with the old `top` as its successor; the value list gains `data` in front; `len` grows by 1 (wrapping); a cached box is reused before a fresh one is allocated |
| HazardStack.PushAsWritten | src/stacc_lockfree_hp.rs:147-169 | as written, a push through a non-empty cache makes the cached box `top` with the heap unchanged, so the pushed value is not stored |
| HazardStack.Pop | src/stacc_lockfree_hp.rs:171-218 | a handle number of 32 or more panics; on an empty stack only the own hazard slot is touched (left null); otherwise the top's payload comes back, `top` moves to its successor, the slot is null again, `len` drops by 1 (wrapping) and the box is retired: while fewer than 42 pointers are retired it is appended to the retired list and the handle is otherwise unchanged |
| HazardStack.CloneAsWritten | src/stacc_lockfree_hp.rs:234-245 | the new handle takes the counter's previous value as its number, with nothing checked, and empty lists; the counter goes up by one and nothing else in the shared state changes |
| HazardStack.Clone | src/stacc_lockfree_hp.rs:234-245 | corrected form: panics iff the counter has reached 32; otherwise as written, with a number below 32 |
| HazardStack.DropHandle | src/stacc_lockfree_hp.rs:225-232 | the own slot is nulled; after a scan the remaining retired pointers, all hazards, are appended to the shared list, and every retired pointer still a hazard is among them; the freed boxes are the old cache followed by retired pointers that are not hazards; appended and freed together are exactly the handle's boxes |
| HazardStack.DropShared | src/stacc_lockfree_hp.rs:60-79 | frees every pointer handed over by departed handles, then every box reachable from `top`, once each |
| HazardStack.SysNewInv | src/stacc_lockfree_hp.rs:94-103 | a new stack with its first handle satisfies the ownership invariant and holds no value |
| HazardStack.PushKeepsOwnership | src/stacc_lockfree_hp.rs:147-169 | corrected form (through `GetNode`): after a push every allocated box is still owned exactly once |
| HazardStack.SysPush | src/stacc_lockfree_hp.rs:147-169 | corrected form (through `GetNode`): a push through any handle keeps the invariant and puts `x` on top of the value list |
| HazardStack.PopKeepsOwnership | src/stacc_lockfree_hp.rs:193-217 | after a pop from a non-empty stack every allocated box is still owned exactly once, the popped box now by the handle |
| HazardStack.PopKeepsInv | src/stacc_lockfree_hp.rs:193-217 | a pop from a non-empty stack does not panic, keeps the invariant and takes exactly the top value |
| HazardStack.SysPop | src/stacc_lockfree_hp.rs:171-218 | a pop through any handle keeps the invariant and never panics; `None` iff the stack is empty, and then nothing changes; otherwise the top value is removed and returned |
| HazardStack.CloneKeepsInv | src/stacc_lockfree_hp.rs:234-245 | adding the handle a successful clone returns keeps the invariant and the values |
| HazardStack.SysClone | src/stacc_lockfree_hp.rs:234-245 | a checked clone panics iff 32 handles were numbered; otherwise it adds a handle and keeps the invariant and the values |
| HazardStack.DropKeepsOwnership | src/stacc_lockfree_hp.rs:225-232 | after a handle's drop every remaining box is owned exactly once, and the freed boxes are exactly the ones no longer allocated |
| HazardStack.DropKeepsInv | src/stacc_lockfree_hp.rs:225-232 | a handle's drop does not panic and keeps the invariant and the values |
| HazardStack.SysDropHandle | src/stacc_lockfree_hp.rs:225-232 | dropping a handle keeps the invariant and the values; the freed boxes and the remaining ones together are the boxes allocated before |
| HazardStack.LastDropFreesAll | src/stacc_lockfree_hp.rs:60-79 | with no handle left, the handed-over list and the stack together are exactly the allocated boxes |
| HazardStack.Teardown | src/stacc_lockfree_hp.rs:60-79 | corrected form (through `GetNode`): dropping every handle and then the shared part frees every allocated box exactly once |
| HazardStack.SysPushAll | src/stacc_lockfree_hp.rs:147-169 | corrected form (through `GetNode`): pushing `xs` puts them on top in reverse order and keeps the invariant |
| HazardStack.SysPopN | src/stacc_lockfree_hp.rs:171-218 | `k` pops return what `k` pops of the value list return, top first and then `None`, and leave exactly the rest |
| HazardStack.Lifo | src/stacc_lockfree_hp.rs:147-218 | corrected form (through `GetNode`): pushing `xs` and popping as many times returns `xs` reversed and restores the values |
| HazardStack.DrainAfterPushes | src/stacc_lockfree_hp.rs:171-180 | corrected form (through `GetNode`): on an empty stack, pushing `xs` and popping once more returns `xs` reversed and then `None` |
| HazardStack.SingleTest | tests/stacc_lockfree_hp.rs:4-17 | push 0..3 on an empty stack with one handle (the state `SysNewInv` promises for a new stack), then five pops give 3, 2, 1, 0 and `None` |
| HazardStack.StalePayloadAsWritten | src/stacc_lockfree_hp.rs:105-110 | as written, a push through a non-empty cache is followed by a pop that returns the cached box's old payload, whatever was pushed |
| HazardStack.StalePayloadExample | src/stacc_lockfree_hp.rs:149-154 | as written, a handle caching a box that held 7 pushes 99, and the next pop returns 7 and leaves the stack empty |
| HazardStack.PushThenPop | src/stacc_lockfree_hp.rs:149-154 | with the corrected `get_node`, a push followed by a pop through the same handle returns the pushed value and restores the values |
| HazardStack.CloneManyAsWritten | src/stacc_lockfree_hp.rs:234-245 | `k` unchecked clones get the numbers `counter`, ..., `counter + k - 1` in order |
| HazardStack.ThirtyThirdHandlePanicsAsWritten | src/stacc_lockfree_hp.rs:174-180 | as written, `new` plus 32 clones yields a handle numbered 32, and its first pop panics on the 32-slot hazard table |
| HazardStack.CloneBoundChecked | src/stacc_lockfree_hp.rs:11-12 | with the check at clone time, the clone that would take number 32 panics, and every existing handle pops without panicking |
| RefcountStack.NonnullToBox | src/stacc_lockfree.rs:10-13 | panics iff the node's counter is nonzero; otherwise exactly that box is freed |
| RefcountStack.New | src/stacc_lockfree.rs:37-45 | a new stack is empty with length 0 and no garbage anywhere |
| RefcountStack.HoldRelease | src/stacc_lockfree.rs:75-93 | a counter raised by one and lowered again, both wrapping, is back where it was |
| RefcountStack.PopAttempt | src/stacc_lockfree.rs:67-95 | a null head returns `None`; a lost CAS leaves the state as it was; a won CAS takes the head off the list, leaves its counter one higher and lowers `len` by 1 |
| RefcountStack.InnerPop | src/stacc_lockfree.rs:67-95 | `None` iff the list is empty, and then nothing changes; otherwise the head comes off, its counter is one higher and `len` drops by 1 |
| RefcountStack.InnerPush | src/stacc_lockfree.rs:97-113 | the node's successor becomes the old head and the node becomes the head; `len` grows by 1 |
| RefcountStack.CasLoopAsWritten | src/stacc_lockfree.rs:98-110 | the loop succeeds at the first attempt that finds the originally loaded head again, and the node then links to what the previous failed attempt found |
| RefcountStack.CasLoop | src/stacc_lockfree.rs:98-110 | corrected form: whenever it succeeds, the node links to exactly the head it replaced |
| RefcountStack.StaleSuccessorAsWritten | src/stacc_lockfree.rs:102-110 | as written, heads `b` then `a` seen after loading `a` install the node in place of `a` but linked to `b`; under the same interference plus one more observation of `a`, the corrected loop succeeds at its third attempt and links the node to `a`, the head it replaces |
| RefcountStack.CasLoopsAgreeUncontended | src/stacc_lockfree.rs:102-110 | without interference both loops succeed at once and link to the loaded head |
| RefcountStack.MakeNode | src/stacc_lockfree.rs:129-140 | the most recent local-garbage box is reused, with the new item, before a fresh box with counter 0 is allocated |
| RefcountStack.Pop | src/stacc_lockfree.rs:141-152 | `None` iff the stack is empty; otherwise the head's item comes back, the counter returns to its old value, `len` drops by 1 and the box joins the local garbage |
| RefcountStack.Push | src/stacc_lockfree.rs:154-157 | the new head holds `x` and links to the old head; `len` grows by 1; the last local-garbage box is reused before a fresh one is allocated |
| RefcountStack.Clone | src/stacc_lockfree.rs:164-171 | the new handle has no local garbage |
| RefcountStack.SplitHeld | src/stacc_lockfree.rs:176-188 | local garbage splits into boxes with counter 0 and the others, each box going to exactly one side |
| RefcountStack.DropHandle | src/stacc_lockfree.rs:173-190 | boxes with counter 0 are freed and the others are appended to the global garbage; together they are the local garbage |
| RefcountStack.ReclaimAll | src/stacc_lockfree.rs:49-55 | freeing the global garbage succeeds iff every counter there is 0, and then frees exactly those boxes |
| RefcountStack.DrainAsWritten | src/stacc_lockfree.rs:58-62 | as written, an empty stack drains to nothing, and a first box whose counter is 0 makes the drain panic |
| RefcountStack.Drain | src/stacc_lockfree.rs:58-62 | corrected form: the drain succeeds iff every box on the stack has counter 0, and then frees the stack's boxes in order |
| RefcountStack.InnerDropAsWritten | src/stacc_lockfree.rs:47-63 | as written, with every counter at 0 the shared part's drop panics iff the stack is non-empty |
| RefcountStack.InnerDrop | src/stacc_lockfree.rs:47-63 | corrected form: with every counter at 0 it frees the global garbage and then the stack |
| RefcountStack.SysNewInv | src/stacc_lockfree.rs:121-127 | a new stack with its first handle satisfies the ownership invariant and holds no value |
| RefcountStack.PushKeepsOwnership | src/stacc_lockfree.rs:154-157 | after a push every allocated box is still owned exactly once |
| RefcountStack.SysPush | src/stacc_lockfree.rs:154-157 | a push keeps the invariant, every counter at 0 included, and puts `x` on top |
| RefcountStack.PopKeepsOwnership | src/stacc_lockfree.rs:141-152 | after a pop every allocated box is still owned exactly once, the popped box now by the handle |
| RefcountStack.SysPop | src/stacc_lockfree.rs:141-152 | a pop keeps the invariant; `None` iff the stack is empty, and then nothing changes; otherwise the top value is removed and returned |
| RefcountStack.SysClone | src/stacc_lockfree.rs:164-171 | a clone adds a handle and keeps the invariant and the values |
| RefcountStack.DropKeepsOwnership | src/stacc_lockfree.rs:173-190 | with no pop in flight a handle's drop frees its whole local garbage and defers nothing, and every remaining box is owned exactly once |
| RefcountStack.SysDropHandle | src/stacc_lockfree.rs:173-190 | dropping a handle frees exactly its local garbage and keeps the invariant and the values |
| RefcountStack.LastDrop | src/stacc_lockfree.rs:47-63 | with no handle left, the corrected drop of the shared part frees exactly the allocated boxes |
| RefcountStack.Teardown | src/stacc_lockfree.rs:47-63 | dropping every handle and then the shared part (corrected) frees every allocated box exactly once |
| RefcountStack.NonEmptyTeardownPanicsAsWritten | src/stacc_lockfree.rs:58-59 | as written, dropping the shared part after the last handle panics iff a value is still on the stack |
| RefcountStack.SysPushAll | src/stacc_lockfree.rs:154-157 | pushing `xs` puts them on top in reverse order and keeps the invariant |
| RefcountStack.SysPopN | src/stacc_lockfree.rs:141-152 | `k` pops return what `k` pops of the value list return, top first and then `None`, and leave exactly the rest |
| RefcountStack.Lifo | src/stacc_lockfree.rs:67-113 | pushing `xs` and popping as many times returns `xs` reversed and restores the values |
| RefcountStack.PopThenPushReuses | src/stacc_lockfree.rs:129-139 | a pop followed by a push relinks the popped box as the head, holding the new value, and allocates nothing |
| EpochReclaim.EncodeFacts | src/stacc_lockfree_ebr.rs:43-44 | the slot value for `g` (`g` shifted left by one with bit 0 set) is active and records `g mod 128`, which equals `g` iff `g < 128` |
| EpochReclaim.AllObservedAsWritten | src/stacc_lockfree_ebr.rs:18-25 | true iff every active slot records exactly `value`; inactive slots are ignored |
| EpochReclaim.HaveAllObservedAsWritten | src/stacc_lockfree_ebr.rs:17-29 | the same answer, and a true answer moves the epoch up by one (wrapping) while a false one changes nothing |
| EpochReclaim.AllObserved | src/stacc_lockfree_ebr.rs:18-25 | corrected form: true iff every active slot records the low seven bits of `value` |
| EpochReclaim.HaveAllObserved | src/stacc_lockfree_ebr.rs:17-29 | corrected form: that answer, with the epoch moving up by one exactly on true |
| EpochReclaim.TwoAgo | src/stacc_lockfree_ebr.rs:48-49 | `g.wrapping_sub(2) % 4` is `(g - 2) mod 4`, a valid bucket index |
| EpochReclaim.Reclaim | src/stacc_lockfree_ebr.rs:48-57 | the bucket two epochs back is appended to the garbage and emptied; the other buckets are untouched |
| EpochReclaim.MarkUseAsWritten | src/stacc_lockfree_ebr.rs:42-59 | a slot number of 32 or more panics; otherwise the own slot holds `g` shifted left by one with bit 0 set, and exactly when every active slot records `g` the epoch advances and the bucket two back is reclaimed |
| EpochReclaim.MarkUse | src/stacc_lockfree_ebr.rs:42-59 | corrected form: the same with the seven-bit comparison |
| EpochReclaim.DeferAsWritten | src/stacc_lockfree_ebr.rs:63-67 | panics iff the slot number is 32 or more or the recorded epoch is 4 or more; otherwise the slot is decremented, an active slot becomes inactive with the same epoch, and the pointer joins bucket `epoch >> 1` |
| EpochReclaim.Defer | src/stacc_lockfree_ebr.rs:63-67 | corrected form: panics only on a slot number past the table, and the pointer joins bucket `(epoch >> 1) mod 4` |
| EpochReclaim.SingleParticipantAdvances | src/stacc_lockfree_ebr.rs:42-47 | with the seven-bit comparison, a lone participant's `mark_use` always advances the epoch |
| EpochReclaim.SingleParticipantAsWritten | src/stacc_lockfree_ebr.rs:42-47 | as written, a lone participant advances the epoch iff it is below 128 |
| EpochReclaim.EpochStallsAsWritten | src/stacc_lockfree_ebr.rs:44-47 | as written, from epoch 128 on no `mark_use` moves the epoch or reclaims anything, whatever the other slots hold |
| EpochReclaim.DeferPanicsAsWritten | src/stacc_lockfree_ebr.rs:63-66 | as written, `defer` right after `mark_use` at epoch `g` panics iff `g mod 128 >= 4` |
| EpochReclaim.DeferAfterMarkUse | src/stacc_lockfree_ebr.rs:63-67 | corrected form: `defer` after `mark_use` never panics, leaves the own slot inactive and puts the pointer in bucket `g mod 4` |
| EpochReclaim.MarkUseKeepsAsWritten | src/stacc_lockfree_ebr.rs:42-58 | one `mark_use` as written leaves every bucket but the one two epochs back untouched and moves the epoch by at most one |
| EpochReclaim.MarkUseKeeps | src/stacc_lockfree_ebr.rs:47-58 | corrected form: one `mark_use` leaves every bucket but the one two epochs back untouched and moves the epoch by at most one |
| EpochReclaim.BucketOfEpochSpared | src/stacc_lockfree_ebr.rs:48-49 | neither the advance from `g` nor the one from `g + 1` reclaims bucket `g mod 4` |
| EpochReclaim.GracePeriodAsWritten | src/stacc_lockfree_ebr.rs:42-67 | with `mark_use` as written, a pointer deferred into the current epoch's bucket survives the owner's next two `mark_use` calls |
| EpochReclaim.GracePeriod | src/stacc_lockfree_ebr.rs:42-67 | corrected form: a pointer deferred into the current epoch's bucket survives the owner's next two `mark_use` calls |

## Left out

- Thread interleavings, memory orderings, fences, linearizability and progress. Each atomic operation is one step, and `compare_exchange_weak` has no spurious failure.
- The `parking_lot` `RwLock`s and the swap lock of `src/stacc.rs`. The swap is one atomic exchange, and the contended `try_lock` path, which waits and returns, has no sequential counterpart.
- Raw pointers, `Box::into_raw`/`from_raw`, `MaybeUninit`, `ptr::read`/`ptr::write`: boxes are abstract addresses in a heap map.
- `Stacc::clone` in `src/stacc.rs` and the `Stacc` wrappers. They only clone the `Arc` or forward to `StaccInner`, so `DoubleBuffer` models `StaccInner` directly.
- `src/atomic_arc.rs` is not part of this model: it only hands an `Arc` over an `AtomicPtr`.
- `other_side_alive` in `src/spsc_queue.rs`, which reads `Arc::strong_count`. `src/spsc_queue.rs` has no constructor for the ring, so a ring is any valid state.
- `QueueConsumer::len` and `QueueProducer::len`: they forward to `QueueInner::len` (`SpscQueue.Len`).
- The threaded tests. Only the sequential `single` tests are stated (`DoubleBuffer.SingleTest`, `HazardStack.SingleTest`). The hazard-pointer test builds its stack with `Private::new`, which is not in the source, so `HazardStack.SingleTest` starts from the empty one-handle state that `LockFreeStacc::new` produces.
- The epoch module's constructors, `Local`'s drop and the use of `global_garbage`: none of them is in the source. `Shared.globalGarbage` is carried but never changed.
- HazardStack.Pop: the `newertop != top` re-read (`src/stacc_lockfree_hp.rs:182-186`) always sees the same pointer sequentially, so the retry is not modelled.
- HazardStack.DropShared: frees boxes without dropping their payloads, which as written are never dropped (`MaybeUninit`). Payload drop is not modelled.
- `HazardStack.Len` and `RefcountStack.Len` only read the advisory counter. Its change by one per push and pop is stated in `Push` and `Pop`.
- HazardStack.CloneAsWritten: the handle counter is an unbounded `nat`, so its 2^64 wrap-around is not modelled; the 33rd handle already fails long before.
- RefcountStack.InnerPop: the retry loop of `StaccInner::pop` is one winning `PopAttempt`. A lost attempt is stated separately, and `PopAttempt` shows it leaves the state unchanged.
- RefcountStack.Push: models the retry loop of `StaccInner::push` as one compare-and-swap that succeeds at once. The as-written loop is `CasLoopAsWritten`, stated on its own over the heads each attempt observes.
- DoubleBuffer.Push: states the stored elements as a multiset, not the buffer and index where `x` lands. `PushAllIntoPushers` states the placement when the push side has room.
- DoubleBuffer.BufferPop and DoubleBuffer.BufferPush: the `isize` counters are unbounded `int`. For a capacity below `isize::MAX` they stay within `[-1, capacity + 1]`, so the `isize` range is never reached. The model does not cover larger capacities (see the next line).
- DoubleBuffer.NewBuffer and DoubleBuffer.New: accept every capacity `n`; the source agrees with the model only for `n < isize::MAX`. Above that, `Vec::with_capacity(n)` panics for most `T` (`src/stacc.rs:58`). For a zero-sized `T` it does not, and `maxlen = n as isize` (`src/stacc.rs:68`) wraps instead. At `n >= 2^63` it is negative: every buffer push refuses and `StaccInner::push` swaps and recurses without end. At `n == isize::MAX` a push to a full buffer carries the counter to `isize::MIN`, and the next push indexes past the slice. Neither overflow is modelled.

## Findings

| source | as written | input that shows it | evidently intended | confidence | as-written member | corrected member |
|---|---|---|---|---|---|---|
| src/stacc_lockfree_hp.rs:105-110 | on a cache hit `get_node` returns the cached box as it is and drops the freshly built node, so `push` publishes the box's old payload and old successor | a handle whose cache holds a box with payload 7 pushes 99; the next pop returns 7 | reuse the cached box but store the new node in it | high; not executed | HazardStack.StalePayloadExample | HazardStack.PushThenPop |
| src/stacc_lockfree_hp.rs:234-245 | `clone` takes the counter's value as the handle number and never checks it against the 32-slot table | `new` followed by 32 clones; the last handle is numbered 32 and its first `pop` indexes `hazard_pointers[32]` | the participant bound checked when the handle is created | medium; not executed | HazardStack.ThirtyThirdHandlePanicsAsWritten | HazardStack.CloneBoundChecked |
| src/stacc_lockfree.rs:58-59 | the drain loop of `StaccInner::drop` takes each box through `self.pop()`, which leaves its counter at 1, and `nonnull_to_box` then asserts the counter is 0 | the last handle dropped while one value is still on the stack | lower the counter before reclaiming a box the drop itself popped | high; not executed | RefcountStack.NonEmptyTeardownPanicsAsWritten | RefcountStack.LastDrop |
| src/stacc_lockfree.rs:98-110 | the retry loop of `push` keeps comparing against the head loaded first, and after a failure links the node to the head it found | load head `a`; the first attempt finds `b`, the second finds `a` again: the node replaces `a` but links to `b`, losing `a` | refresh the expected head from each failure | high; not executed | RefcountStack.StaleSuccessorAsWritten | RefcountStack.CasLoop |
| src/stacc_lockfree_ebr.rs:63-66 | `defer` indexes the four limbo buckets with the recorded epoch, not reduced modulo 4 | `mark_use` at global epoch 4, then `defer`: `limbo[4]` is out of bounds | index `limbo[(epoch >> 1) % 4]` | high; not executed | EpochReclaim.DeferPanicsAsWritten | EpochReclaim.DeferAfterMarkUse |
| src/stacc_lockfree_ebr.rs:44 | shifting the `u8` epoch left by one to make room for the active bit drops bit 7, so from epoch 128 on the caller's own slot never matches the epoch and it stops advancing | global epoch 128, a lone participant calls `mark_use`: the epoch stays 128 | compare the slots with the seven bits they can record | high; not executed | EpochReclaim.EpochStallsAsWritten | EpochReclaim.SingleParticipantAdvances |

=== FILE: chain.dfy ===
/** Singly-linked lists over abstract node addresses. A heap is projected to its
    link map (each live address to its successor, `None` for null); the list
    hanging off a pointer is the walk that follows successors until null. */
module LinkedList {
  import opened Wrappers

  /** An abstract node address: what `Box::into_raw` hands out. */
  type NodeId = nat

  /** Each live node's successor pointer. */
  type LinkMap = map<NodeId, Option<NodeId>>

  /** The addresses visited from `p` by following successors until null, each
      visited at most once. `None` when the walk reaches an address that is not
      live, or comes back to one it already visited (a cycle). */
  function Walk(links: LinkMap, p: Option<NodeId>): Option<seq<NodeId>>
    decreases links.Keys
  {
    match p
    case None => Some([])
    case Some(id) =>
      if id !in links then None
      else
        match Walk(links - {id}, links[id])
        case None => None
        case Some(rest) => Some([id] + rest)
  }

  /** No address appears twice in `ids`. */
  predicate Distinct(ids: seq<NodeId>) {
    forall i, j :: 0 <= i < j < |ids| ==> ids[i] != ids[j]
  }

  /** The addresses listed in `xs`. */
  function Elems(xs: seq<NodeId>): set<NodeId> {
    set x | x in xs
  }

  /** The addresses of a non-empty list: its head and those of its tail. */
  lemma ElemsCons(xs: seq<NodeId>)
    requires xs != []
    ensures Elems(xs) == {xs[0]} + Elems(xs[1..])
  {
    assert xs == [xs[0]] + xs[1..];
  }

  /** Regrouping a sum of three bags. */
  lemma BagRegroup(a: multiset<NodeId>, m: multiset<NodeId>, b: multiset<NodeId>)
    ensures a + (m + b) == (a + m) + b
    ensures a + (m + b) == (a + b) + m
  {
    forall z ensures (a + (m + b))[z] == ((a + m) + b)[z] == ((a + b) + m)[z] {}
  }

  /** Moving a front part of a four-part bag to the back. */
  lemma BagRotate(m: multiset<NodeId>, a: multiset<NodeId>, g: multiset<NodeId>, b: multiset<NodeId>)
    ensures (m + a) + g + b == (a + g + b) + m
  {
    forall z ensures ((m + a) + g + b)[z] == ((a + g + b) + m)[z] {}
  }

  /** Allocating a new address adds it once to the bag of live addresses. */
  lemma BagAddKey(keys: set<NodeId>, x: NodeId)
    requires x !in keys
    ensures multiset(keys + {x}) == multiset(keys) + multiset{x}
  {
    forall z ensures multiset(keys + {x})[z] == (multiset(keys) + multiset{x})[z] {
      if z == x {
      } else {
        assert (z in keys + {x}) == (z in keys);
      }
    }
  }

  /** Exchanging the middle part of a three-part bag. */
  lemma BagExchange(a: multiset<NodeId>, x: multiset<NodeId>, y: multiset<NodeId>, b: multiset<NodeId>)
    ensures (a + x + b) + y == (a + y + b) + x
  {
    forall z ensures ((a + x + b) + y)[z] == ((a + y + b) + x)[z] {}
  }

  /** Taking the boxes of `b` away from a set of boxes that `a` and `b` cover
      exactly once leaves what `a` covers. */
  lemma MultisetMinusSet(a: multiset<NodeId>, b: seq<NodeId>, keys: set<NodeId>)
    requires a + multiset(b) == multiset(keys)
    ensures a == multiset(keys - Elems(b))
  {
    forall x
      ensures a[x] == multiset(keys - Elems(b))[x]
    {
      assert a[x] + multiset(b)[x] == multiset(keys)[x];
      if x in b {
        assert multiset(b)[x] >= 1;
        assert x in Elems(b);
        assert x !in keys - Elems(b);
      } else {
        assert multiset(b)[x] == 0;
        assert x !in Elems(b);
        assert (x in keys - Elems(b)) == (x in keys);
      }
    }
  }

  /** A completed walk visits only live addresses, none twice, starting at `p`. */
  lemma {:induction false} WalkShape(links: LinkMap, p: Option<NodeId>, ids: seq<NodeId>)
    requires Walk(links, p) == Some(ids)
    ensures forall i :: 0 <= i < |ids| ==> ids[i] in links
    ensures Distinct(ids)
    ensures p.None? <==> ids == []
    ensures p.Some? ==> ids[0] == p.value
    decreases links.Keys
  {
    match p
    case None =>
    case Some(id) =>
      var rest := Walk(links - {id}, links[id]).value;
      WalkShape(links - {id}, links[id], rest);
      assert ids == [id] + rest;
  }

  /** Forgetting nodes the walk never visits does not change the walk. */
  lemma {:induction false} WalkForget(links: LinkMap, p: Option<NodeId>, ids: seq<NodeId>, gone: set<NodeId>)
    requires Walk(links, p) == Some(ids)
    requires forall k :: 0 <= k < |ids| ==> ids[k] !in gone
    ensures Walk(links - gone, p) == Some(ids)
    decreases links.Keys
  {
    match p
    case None =>
    case Some(id) =>
      var rest := Walk(links - {id}, links[id]).value;
      assert ids == [id] + rest;
      assert ids[0] !in gone;
      assert forall k :: 0 <= k < |rest| ==> rest[k] == ids[k + 1];
      WalkForget(links - {id}, links[id], rest, gone);
      assert (links - {id}) - gone == (links - gone) - {id};
      assert id in links - gone;
  }

  /** Adding back a node the walk never needs does not change a completed walk. */
  lemma {:induction false} WalkRemember(links: LinkMap, p: Option<NodeId>, ids: seq<NodeId>, c: NodeId)
    requires Walk(links - {c}, p) == Some(ids)
    ensures Walk(links, p) == Some(ids)
    decreases links.Keys
  {
    match p
    case None =>
    case Some(id) =>
      assert id in links - {c};
      var rest := Walk((links - {c}) - {id}, links[id]).value;
      assert ids == [id] + rest;
      assert (links - {c}) - {id} == (links - {id}) - {c};
      WalkRemember(links - {id}, links[id], rest, c);
  }

  /** Redirecting a node the walk never visits does not change the walk. */
  lemma WalkFrame(links: LinkMap, p: Option<NodeId>, ids: seq<NodeId>, c: NodeId, q: Option<NodeId>)
    requires Walk(links, p) == Some(ids)
    requires c !in ids
    ensures Walk(links[c := q], p) == Some(ids)
  {
    WalkForget(links, p, ids, {c});
    assert links[c := q] - {c} == links - {c};
    WalkRemember(links[c := q], p, ids, c);
  }

  /** Linking a node `c` that is not on the list in front of the list's head
      yields the list with `c` in front: the push step of every linked stack. */
  lemma WalkPush(links: LinkMap, p: Option<NodeId>, ids: seq<NodeId>, c: NodeId)
    requires Walk(links, p) == Some(ids)
    requires c !in ids
    ensures Walk(links[c := p], Some(c)) == Some([c] + ids)
  {
    WalkForget(links, p, ids, {c});
    assert links[c := p] - {c} == links - {c};
  }

  /** Following the head's successor yields the rest of the list: the pop step. */
  lemma WalkPop(links: LinkMap, t: NodeId, ids: seq<NodeId>)
    requires Walk(links, Some(t)) == Some(ids)
    ensures t in links && |ids| > 0 && ids[0] == t
    ensures Walk(links, links[t]) == Some(ids[1..])
  {
    var rest := Walk(links - {t}, links[t]).value;
    assert ids == [t] + rest;
    WalkRemember(links, links[t], rest, t);
  }
}

=== FILE: spsc_queue.dfy ===
/** The single-producer/single-consumer ring buffer: 256 slots, a reader index
    `head` (the slot last read) and a writer index `tail` (the slot last
    written). Indices advance with `usize` wrapping arithmetic and are then
    masked with `cap - 1`; for the power-of-two capacity the mask keeps the
    remainder modulo 256. One slot always stays free, so 255 are usable. */
module SpscQueue {
  import opened Wrappers
  import opened Usize
  import opened Sequences

  const CAP: nat := 256

  /** `x & (cap - 1)` with `cap == 256`. */
  function Mask(x: nat): nat { x % CAP }

  /** `QueueInner`: the two indices and the slot array. */
  datatype Queue<T> = Queue(head: nat, tail: nat, data: seq<Option<T>>)

  /** The number of occupied slots, counted modulo the capacity. */
  function Count<T>(q: Queue<T>): nat { (q.tail - q.head) % CAP }

  /** The slot holding the `i`-th oldest element. */
  function Slot(head: nat, i: nat): nat { (head + 1 + i) % CAP }

  /** Both indices lie in `[0, 256)` and every occupied slot, from `head + 1`
      up to `tail`, holds a value. */
  predicate Valid<T>(q: Queue<T>) {
    && |q.data| == CAP
    && q.head < CAP
    && q.tail < CAP
    && forall i :: 0 <= i < Count(q) ==> q.data[Slot(q.head, i)].Some?
  }

  /** The queued elements, oldest first. */
  function Contents<T>(q: Queue<T>): (c: seq<T>)
    requires Valid(q)
    ensures |c| == Count(q)
  {
    seq(Count(q), i requires 0 <= i < Count(q) => q.data[Slot(q.head, i)].value)
  }

  /** Reduction modulo the capacity of a value less than one lap away. */
  lemma ModCap(a: int)
    requires -(CAP as int) <= a < 2 * CAP
    ensures a % CAP == (if a < 0 then a + CAP else if a < CAP then a else a - CAP)
  {
  }

  /** Index arithmetic on in-range indices never reaches the `usize` wrap point
      except for `0 - 1`, and masking removes that difference. */
  lemma MaskedSteps(a: nat, b: nat)
    requires a < CAP && b < CAP
    ensures Mask(WrappingAdd(a, 1)) == (a + 1) % CAP
    ensures Mask(WrappingSub(a, b)) == (a - b) % CAP
  {
    ModCap(a - b);
    if a < b {
      assert WrappingSub(a, b) == USIZE + (a - b);
      assert USIZE + (a - b) == CAP * 0x100_0000_0000_0000 - CAP + (a - b + CAP);
    }
  }

  /** Both indices lie in `[0, 256)`. */
  predicate InRange<T>(q: Queue<T>) {
    q.head < CAP && q.tail < CAP
  }

  /** Counting and slot arithmetic for an in-range `head` and `tail`. */
  lemma Arith<T>(q: Queue<T>)
    requires InRange(q)
    ensures Count(q) == (if q.tail >= q.head then q.tail - q.head else q.tail + CAP - q.head)
    ensures forall i: nat :: i < CAP ==> Slot(q.head, i) == (if q.head + 1 + i < CAP then q.head + 1 + i else q.head + 1 + i - CAP)
  {
    ModCap(q.tail - q.head);
    forall i: nat | i < CAP
      ensures Slot(q.head, i) == (if q.head + 1 + i < CAP then q.head + 1 + i else q.head + 1 + i - CAP)
    {
      ModCap(q.head + 1 + i);
    }
  }

  /** Walking `count` slots forward from `head` lands on `tail`. */
  lemma TailSlot<T>(q: Queue<T>)
    requires Valid(q)
    ensures Count(q) < CAP
    ensures Count(q) > 0 ==> Slot(q.head, Count(q) - 1) == q.tail
    ensures Count(q) < CAP - 1 ==> Slot(q.head, Count(q)) == (q.tail + 1) % CAP
    ensures Count(q) == CAP - 1 <==> (q.tail + 1) % CAP == q.head
  {
    Arith(q);
    ModCap(q.tail + 1);
  }

  /** `QueueInner::len`: `tail.wrapping_sub(head) & mask` is the number of
      queued elements, at most 255. */
  function Len<T>(q: Queue<T>): (n: nat)
    requires Valid(q)
    ensures n == |Contents(q)|
    ensures n < CAP
  {
    MaskedSteps(q.tail, q.head);
    Mask(WrappingSub(q.tail, q.head))
  }

  /** `QueueConsumer::pop`: empty exactly when `head == tail`, and then nothing
      changes; otherwise the oldest element comes out of slot `head + 1`, which
      becomes the new `head`, and `tail` and the slots are untouched. */
  function Pop<T>(q: Queue<T>): (r: (Queue<T>, Option<T>))
    requires Valid(q)
    ensures Valid(r.0) && r.0.tail == q.tail && r.0.data == q.data
    ensures r.1.None? <==> q.head == q.tail
    ensures r.1.None? ==> r.0 == q
    ensures r.1.Some? ==> r.0.head == (q.head + 1) % CAP
    ensures r.1.Some? ==> Contents(q) == [r.1.value] + Contents(r.0)
    ensures r.1.Some? ==> Count(r.0) == Count(q) - 1
  {
    var head := q.head;
    var tail := q.tail;
    if head == tail then (q, None)
    else
      var new_head := Mask(WrappingAdd(head, 1));
      MaskedSteps(head, 0);
      Arith(q);
      assert Count(q) > 0 && Slot(head, 0) == new_head;
      var item := q.data[new_head].value;
      var q' := q.(head := new_head);
      assert Count(q') == Count(q) - 1 by {
        Arith(q');
      }
      assert Contents(q) == [item] + Contents(q') by {
        Arith(q');
        forall i | 0 <= i < Count(q') ensures Slot(new_head, i) == Slot(head, i + 1) { }
      }
      (q', Some(item))
  }

  /** `QueueProducer::push`: the value comes back unchanged exactly when the
      slot after `tail` is `head`, that is when 255 elements are queued;
      otherwise `x` is written to slot `tail + 1`, which becomes the new
      `tail`, and `head` is untouched. */
  function Push<T>(q: Queue<T>, x: T): (r: (Queue<T>, Option<T>))
    requires Valid(q)
    ensures Valid(r.0)
    ensures r.1.Some? <==> Count(q) == CAP - 1
    ensures r.1.Some? ==> r == (q, Some(x))
    ensures r.1.None? ==> r.0.head == q.head && r.0.tail == (q.tail + 1) % CAP
    ensures r.1.None? ==> r.0.data[r.0.tail] == Some(x)
    ensures r.1.None? ==> Contents(r.0) == Contents(q) + [x]
    ensures r.1.None? ==> Count(r.0) == Count(q) + 1
  {
    var head := q.head;
    var tail := q.tail;
    var new_tail := Mask(WrappingAdd(tail, 1));
    MaskedSteps(tail, 0);
    TailSlot(q);
    if new_tail == head then (q, Some(x))
    else
      WriteAfterTail(q, x);
      (q.(data := q.data[new_tail := Some(x)], tail := new_tail), None)
  }

  /** Writing `x` into the free slot after `tail` and advancing `tail` there
      appends `x` to the queue. */
  lemma WriteAfterTail<T>(q: Queue<T>, x: T)
    requires Valid(q) && (q.tail + 1) % CAP != q.head
    ensures var q' := q.(data := q.data[(q.tail + 1) % CAP := Some(x)], tail := (q.tail + 1) % CAP);
            && Valid(q') && Count(q') == Count(q) + 1 && Contents(q') == Contents(q) + [x]
  {
    var new_tail := (q.tail + 1) % CAP;
    var q' := q.(data := q.data[new_tail := Some(x)], tail := new_tail);
    TailSlot(q);
    assert Count(q') == Count(q) + 1 by {
      Arith(q);
      Arith(q');
      ModCap(q.tail + 1);
    }
    assert forall i :: 0 <= i < Count(q) ==> Slot(q.head, i) != new_tail by {
      Arith(q);
    }
    assert Contents(q') == Contents(q) + [x];
  }

  /** `Drop for QueueInner`: walks from `tail` back to `head + 1`, dropping each
      occupied slot exactly once, newest first. */
  method Drop<T>(q: Queue<T>) returns (dropped: seq<T>)
    requires Valid(q)
    ensures dropped == Reverse(Contents(q))
  {
    var head := q.head;
    var tail := q.tail;
    dropped := [];
    ghost var c := Contents(q);
    ghost var k: nat := Count(q);
    Arith(q);
    while tail != head
      invariant |c| == Count(q) && head == q.head < CAP
      invariant k <= Count(q) && tail < CAP
      invariant tail == (if head + k < CAP then head + k else head + k - CAP)
      invariant dropped == Reverse(c[k..])
      decreases k
    {
      DropStep(q, tail, k);
      dropped := dropped + [q.data[tail].value];
      tail := Mask(WrappingSub(tail, 1));
      k := k - 1;
    }
  }

  /** One step of the teardown walk: while `tail` has not come back to
      `head`, it is the slot of the `k`-th oldest element, and stepping back
      reaches the slot of the one before. */
  lemma DropStep<T>(q: Queue<T>, tail: nat, k: nat)
    requires Valid(q) && k <= Count(q) && tail < CAP && tail != q.head
    requires tail == (if q.head + k < CAP then q.head + k else q.head + k - CAP)
    ensures 0 < k && q.data[tail].Some? && q.data[tail].value == Contents(q)[k - 1]
    ensures Mask(WrappingSub(tail, 1)) == (if q.head + (k - 1) < CAP then q.head + (k - 1) else q.head + (k - 1) - CAP)
    ensures Reverse(Contents(q)[k - 1..]) == Reverse(Contents(q)[k..]) + [Contents(q)[k - 1]]
  {
    Arith(q);
    var c := Contents(q);
    assert k > 0;
    assert Slot(q.head, k - 1) == tail;
    ReverseCons(c[k - 1], c[k..]);
    assert c[k - 1..] == [c[k - 1]] + c[k..];
    MaskedSteps(tail, 1);
    ModCap(tail - 1);
  }

  /** Pushes `xs` one after the other, collecting what each push hands back. */
  function PushAll<T>(q: Queue<T>, xs: seq<T>): (r: (Queue<T>, seq<Option<T>>))
    requires Valid(q)
    ensures Valid(r.0) && |r.1| == |xs|
    decreases |xs|
  {
    if xs == [] then (q, [])
    else
      var (q1, r1) := Push(q, xs[0]);
      var (q2, rs) := PushAll(q1, xs[1..]);
      (q2, [r1] + rs)
  }

  /** Pops `k` times, collecting the results. */
  function PopN<T>(q: Queue<T>, k: nat): (r: (Queue<T>, seq<Option<T>>))
    requires Valid(q)
    ensures Valid(r.0) && |r.1| == k
    decreases k
  {
    if k == 0 then (q, [])
    else
      var p := Pop(q);
      var rest := PopN(p.0, k - 1);
      (rest.0, [p.1] + rest.1)
  }

  /** Pushes that fit are all accepted and append to the queue in order. */
  lemma {:induction false} PushAllAppends<T>(q: Queue<T>, xs: seq<T>)
    requires Valid(q)
    requires Count(q) + |xs| < CAP
    ensures PushAll(q, xs).1 == Nones(|xs|)
    ensures Contents(PushAll(q, xs).0) == Contents(q) + xs
    decreases |xs|
  {
    if xs != [] {
      var (q1, r1) := Push(q, xs[0]);
      PushAllAppends(q1, xs[1..]);
      assert xs == [xs[0]] + xs[1..];
    }
  }

  /** Popping `k` times returns the elements oldest first, then `None` for
      every pop past the last, and leaves the elements not yet popped. */
  lemma {:induction false} PopNTakesOldest<T>(q: Queue<T>, k: nat)
    requires Valid(q)
    ensures PopN(q, k).1 == Pops(Contents(q), k)
    ensures Contents(PopN(q, k).0) == Remains(Contents(q), k)
    decreases k
  {
    if k > 0 {
      var p := Pop(q);
      var rest := PopN(p.0, k - 1);
      assert PopN(q, k) == (rest.0, [p.1] + rest.1);
      PopNTakesOldest(p.0, k - 1);
      ModCap(q.tail - q.head);
      PopStep(k, Contents(q), p.1, Contents(p.0));
    }
  }

  /** FIFO with 255 usable slots: on an empty ring, up to 255 pushes succeed,
      popping as many returns them in push order and leaves the ring empty, and
      once 255 are queued the next push is refused. */
  lemma Fifo<T>(q: Queue<T>, xs: seq<T>, y: T)
    requires Valid(q) && q.head == q.tail
    requires |xs| <= CAP - 1
    ensures var (q1, accepted) := PushAll(q, xs);
            && accepted == Nones(|xs|)
            && (|xs| == CAP - 1 ==> Push(q1, y).1 == Some(y))
            && var (q2, popped) := PopN(q1, |xs|);
               && popped == Somes(xs)
               && Pop(q2).1 == None
  {
    PushAllAppends(q, xs);
    var (q1, _) := PushAll(q, xs);
    PopNTakesOldest(q1, |xs|);
    PopsShape(Contents(q1), |xs|);
    assert Contents(q1)[..|xs|] == xs;
  }
}

=== FILE: stacc.dfy ===
/** The bounded double-buffer stack: two fixed-capacity slot arrays, one taking
    pushes and one serving pops, whose roles are exchanged when the push side is
    full or the pop side is empty. Every atomic read-modify-write is one step and
    the `RwLock`s and the swap lock are never contended. */
module DoubleBuffer {
  import opened Wrappers
  import opened Sequences

  /** One fixed-capacity slot array with its signed length counter: the shape
      shared by `AtomicPop` and `AtomicPush`. An uninitialised slot is `None`;
      `ptr::read` leaves the bits in place, so a slot keeps its value after a pop. */
  datatype Buffer<T> = Buffer(slots: seq<Option<T>>, len: int)

  /** The counter lies in `[0, capacity]` and every slot below it holds a value. */
  predicate BufferValid<T>(b: Buffer<T>) {
    && 0 <= b.len <= |b.slots|
    && forall i :: 0 <= i < b.len ==> b.slots[i].Some?
  }

  /** The live elements of a buffer, bottom first. */
  function Contents<T>(b: Buffer<T>): (c: seq<T>)
    requires BufferValid(b)
    ensures |c| == b.len
  {
    seq(b.len, i requires 0 <= i < b.len => b.slots[i].value)
  }

  /** `AtomicPop::new` / `AtomicPush::new`: `n` uninitialised slots, counter 0. */
  function NewBuffer<T>(n: nat): (b: Buffer<T>)
    ensures BufferValid(b) && |b.slots| == n && Contents(b) == []
  {
    Buffer(seq(n, _ => None), 0)
  }

  /** `AtomicPop::pop`: `fetch_sub(1)` returns the old count; when that was 0 the
      counter (now -1) is clamped back with `fetch_max(0)`. */
  function BufferPop<T>(b: Buffer<T>): (r: (Buffer<T>, Option<T>))
    requires BufferValid(b)
    ensures BufferValid(r.0) && r.0.slots == b.slots
    ensures r.1.None? <==> b.len == 0
    ensures r.1.None? ==> r.0 == b
    ensures r.1.Some? ==> Contents(b) == Contents(r.0) + [r.1.value]
  {
    var old_len := b.len;
    var decremented := old_len - 1;
    var counter := if old_len == 0 then (if decremented < 0 then 0 else decremented) else decremented;
    if old_len <= 0 then (b.(len := counter), None)
    else
      var r := (b.(len := counter), Some(b.slots[old_len - 1].value));
      assert Contents(b) == Contents(r.0) + [r.1.value];
      r
  }

  /** `AtomicPush::push`: `fetch_add(1)` returns the old count; when that was the
      capacity the counter is clamped back with `fetch_min(maxlen)` and `x` is
      handed back. */
  function BufferPush<T>(b: Buffer<T>, x: T): (r: (Buffer<T>, Option<T>))
    requires BufferValid(b)
    ensures BufferValid(r.0) && |r.0.slots| == |b.slots|
    ensures r.1.Some? <==> b.len == |b.slots|
    ensures r.1.Some? ==> r.1 == Some(x) && r.0 == b
    ensures r.1.None? ==> r.0.slots[b.len] == Some(x) && Contents(r.0) == Contents(b) + [x]
  {
    var maxlen := |b.slots|;
    var old_len := b.len;
    var incremented := old_len + 1;
    var counter := if old_len == maxlen then (if incremented > maxlen then maxlen else incremented) else incremented;
    if old_len >= maxlen then (b.(len := counter), Some(x))
    else
      var r := (Buffer(b.slots[old_len := Some(x)], counter), None);
      assert Contents(r.0) == Contents(b) + [x];
      r
  }

  predicate Full<T>(b: Buffer<T>) { b.len == |b.slots| }

  /** `StaccInner`: the pop-side and push-side buffers. */
  datatype Stacc<T> = Stacc(poppers: Buffer<T>, pushers: Buffer<T>)

  /** Both buffers are valid and have the capacity given to `new`. */
  predicate Valid<T>(s: Stacc<T>) {
    && BufferValid(s.poppers)
    && BufferValid(s.pushers)
    && |s.poppers.slots| == |s.pushers.slots|
  }

  /** Capacity of each buffer; the whole stack holds at most twice this. */
  function Capacity<T>(s: Stacc<T>): nat { |s.pushers.slots| }

  /** All stored elements: the pop side's, then the push side's. */
  function Elements<T>(s: Stacc<T>): seq<T>
    requires Valid(s)
  {
    Contents(s.poppers) + Contents(s.pushers)
  }

  /** A length read as `isize` and converted to `usize`, negatives read as 0. */
  function Clamp(len: int): nat {
    if len < 0 then 0 else len
  }

  /** `StaccInner::new` / `Stacc::new`. */
  function New<T>(n: nat): (s: Stacc<T>)
    ensures Valid(s) && Capacity(s) == n && Elements(s) == []
  {
    Stacc(NewBuffer(n), NewBuffer(n))
  }

  /** `StaccInner::swap_stacks`: the two buffers (slots and counters) exchange
      roles; no element is gained or lost. */
  function SwapStacks<T>(s: Stacc<T>): (r: Stacc<T>)
    requires Valid(s)
    ensures Valid(r) && Capacity(r) == Capacity(s)
    ensures r.poppers == s.pushers && r.pushers == s.poppers
    ensures multiset(Elements(r)) == multiset(Elements(s))
  {
    Stacc(s.pushers, s.poppers)
  }

  /** `StaccInner::push`. The value comes back only when both buffers are full,
      and then nothing changes; otherwise exactly `x` is added. */
  function Push<T>(s: Stacc<T>, x: T): (r: (Stacc<T>, Option<T>))
    requires Valid(s)
    ensures Valid(r.0) && Capacity(r.0) == Capacity(s)
    ensures r.1.Some? <==> Full(s.pushers) && Full(s.poppers)
    ensures r.1.Some? ==> r.1 == Some(x) && r.0 == s
    ensures r.1.None? ==> multiset(Elements(r.0)) == multiset(Elements(s)) + multiset{x}
    ensures r.1.None? ==> |Elements(r.0)| == |Elements(s)| + 1
    decreases if Full(s.pushers) then 1 else 0
  {
    var (pushers, rejected) := BufferPush(s.pushers, x);
    if rejected.None? then
      var r := (s.(pushers := pushers), None);
      assert Elements(r.0) == Contents(s.poppers) + Contents(s.pushers) + [x];
      r
    else
      var poppers_len := Clamp(s.poppers.len);
      if poppers_len != |s.poppers.slots| then
        Push(SwapStacks(s.(pushers := pushers)), rejected.value)
      else
        (s.(pushers := pushers), rejected)
  }

  /** `StaccInner::pop`. Empty only when both buffers are empty, and then nothing
      changes; otherwise exactly the returned element is removed, and it is the
      top of the pop side, or of the push side when the pop side was drained.
      In the second case the buffers swapped roles first: the drained buffer
      becomes the push side and the old push side, minus its top, the pop side. */
  function Pop<T>(s: Stacc<T>): (r: (Stacc<T>, Option<T>))
    requires Valid(s)
    ensures Valid(r.0) && Capacity(r.0) == Capacity(s)
    ensures r.1.None? <==> s.poppers.len == 0 && s.pushers.len == 0
    ensures r.1.None? ==> r.0 == s
    ensures r.1.Some? ==> multiset(Elements(s)) == multiset(Elements(r.0)) + multiset{r.1.value}
    ensures r.1.Some? ==> |Elements(s)| == |Elements(r.0)| + 1
    ensures s.poppers.len > 0 ==> r.1 == Some(Contents(s.poppers)[s.poppers.len - 1])
    ensures s.poppers.len == 0 && s.pushers.len > 0 ==> r.1 == Some(Contents(s.pushers)[s.pushers.len - 1])
    ensures s.poppers.len > 0 ==>
              && r.0.pushers == s.pushers
              && Contents(r.0.poppers) == Contents(s.poppers)[..s.poppers.len - 1]
    ensures s.poppers.len == 0 && s.pushers.len > 0 ==>
              && r.0.pushers == s.poppers
              && Contents(r.0.poppers) == Contents(s.pushers)[..s.pushers.len - 1]
    decreases if s.poppers.len == 0 then 1 else 0
  {
    var (poppers, item) := BufferPop(s.poppers);
    if item.Some? then
      var r := (s.(poppers := poppers), item);
      assert Elements(s) == Contents(poppers) + [item.value] + Contents(s.pushers);
      r
    else
      var pushers_len := Clamp(s.pushers.len);
      if pushers_len != 0 then
        Pop(SwapStacks(s))
      else
        (s, None)
  }

  /** `StaccInner::len`: the two clamped counters added up. */
  function Len<T>(s: Stacc<T>): (n: nat)
    requires Valid(s)
    ensures n == |Elements(s)|
    ensures n <= 2 * Capacity(s)
  {
    Clamp(s.pushers.len) + Clamp(s.poppers.len)
  }

  /** A push that found its buffer full and swapped succeeds on the retry:
      `push` recurses at most once. */
  lemma PushRetrySucceeds<T>(s: Stacc<T>, x: T)
    requires Valid(s)
    requires Full(s.pushers) && !Full(s.poppers)
    ensures BufferPush(SwapStacks(s).pushers, x).1 == None
  {
  }

  /** A pop that found its buffer empty and swapped succeeds on the retry:
      `pop` recurses at most once. */
  lemma PopRetrySucceeds<T>(s: Stacc<T>)
    requires Valid(s)
    requires s.poppers.len == 0 && s.pushers.len != 0
    ensures BufferPop(SwapStacks(s).poppers).1.Some?
  {
  }

  /** Pushes `xs` one after the other, collecting what each push hands back. */
  function PushAll<T>(s: Stacc<T>, xs: seq<T>): (r: (Stacc<T>, seq<Option<T>>))
    requires Valid(s)
    ensures Valid(r.0) && |r.1| == |xs|
    decreases |xs|
  {
    if xs == [] then (s, [])
    else
      var (s1, r1) := Push(s, xs[0]);
      var (s2, rs) := PushAll(s1, xs[1..]);
      (s2, [r1] + rs)
  }

  /** Pops `k` times, collecting the results. */
  function PopN<T>(s: Stacc<T>, k: nat): (r: (Stacc<T>, seq<Option<T>>))
    requires Valid(s)
    ensures Valid(r.0) && |r.1| == k
    decreases k
  {
    if k == 0 then (s, [])
    else
      var (s1, r1) := Pop(s);
      var (s2, rs) := PopN(s1, k - 1);
      (s2, [r1] + rs)
  }

  /** Into a stack whose pop side is empty, pushes that fit in the push side all
      succeed and land in the push side in order. */
  lemma {:induction false} PushAllIntoPushers<T>(s: Stacc<T>, xs: seq<T>)
    requires Valid(s) && s.poppers.len == 0
    requires s.pushers.len + |xs| <= Capacity(s)
    ensures PushAll(s, xs).1 == Nones(|xs|)
    ensures PushAll(s, xs).0.poppers.len == 0
    ensures Contents(PushAll(s, xs).0.pushers) == Contents(s.pushers) + xs
    decreases |xs|
  {
    if xs != [] {
      var (s1, r1) := Push(s, xs[0]);
      assert r1 == None;
      assert s1.poppers == s.poppers;
      PushAllIntoPushers(s1, xs[1..]);
      assert xs == [xs[0]] + xs[1..];
    }
  }

  /** With the push side empty, popping drains the pop side top first. */
  lemma {:induction false} DrainPoppers<T>(s: Stacc<T>)
    requires Valid(s) && s.pushers.len == 0
    ensures PopN(s, s.poppers.len).1 == Somes(Reverse(Contents(s.poppers)))
    ensures PopN(s, s.poppers.len).0.poppers.len == 0
    ensures PopN(s, s.poppers.len).0.pushers.len == 0
    decreases s.poppers.len
  {
    if s.poppers.len > 0 {
      var (p1, item) := BufferPop(s.poppers);
      var s1 := s.(poppers := p1);
      assert Pop(s) == (s1, item);
      DrainPoppers(s1);
      var c := Contents(s.poppers);
      assert c == Contents(p1) + [item.value];
      ReverseSnoc(Contents(p1), item.value);
      var rest := PopN(s1, s1.poppers.len).1;
      assert PopN(s, s.poppers.len).1 == [item] + rest;
    }
  }

  /** Single-threaded LIFO: on a fresh stack of capacity `n`, pushing up to `n`
      values and popping as many times returns them in reverse, and a further
      pop finds the stack empty. */
  lemma FillThenDrain<T>(n: nat, xs: seq<T>)
    requires |xs| <= n
    ensures var (s1, rejected) := PushAll(New<T>(n), xs);
            && rejected == Nones(|xs|)
            && var (s2, popped) := PopN(s1, |xs|);
               && popped == Somes(Reverse(xs))
               && Pop(s2).1 == None
  {
    var s0 := New<T>(n);
    PushAllIntoPushers(s0, xs);
    var (s1, _) := PushAll(s0, xs);
    assert Contents(s1.pushers) == xs;
    if xs == [] {
    } else {
      var sw := SwapStacks(s1);
      assert Pop(s1) == Pop(sw);
      assert PopN(s1, |xs|) == PopN(sw, |xs|);
      DrainPoppers(sw);
    }
  }

  /** The sequential test of the crate: capacity 4, push 0..3, pop 3, 2, 1, 0. */
  lemma SingleTest(xs: seq<int>)
    requires xs == [0, 1, 2, 3]
    ensures var (s1, rejected) := PushAll(New<int>(4), xs);
            && rejected == [None, None, None, None]
            && PopN(s1, 4).1 == [Some(3), Some(2), Some(1), Some(0)]
  {
    FillThenDrain<int>(4, xs);
    var none: seq<Option<int>> := Nones(|xs|);
    assert none == [None, None, None, None];
    var rev := Reverse(xs);
    assert rev == [3, 2, 1, 0];
    assert Somes(rev) == [Some(3), Some(2), Some(1), Some(0)];
  }

  /** Not LIFO across a swap: with capacity 1, push `a` then `b`, and the next
      pop returns `a`, because `b` went into the other buffer after the swap. */
  lemma NotLifoAcrossSwap<T>(a: T, b: T)
    ensures var (s1, r1) := Push(New<T>(1), a);
            var (s2, r2) := Push(s1, b);
            r1 == None && r2 == None && Pop(s2).1 == Some(a)
  {
    var s0 := New<T>(1);
    var (s1, r1) := Push(s0, a);
    assert Contents(s1.pushers) == [a];
    assert Contents(s1.poppers) == [];
    assert BufferPush(s1.pushers, b) == (s1.pushers, Some(b));
    var sw := SwapStacks(s1);
    assert Push(s1, b) == Push(sw, b);
    var (s2, r2) := Push(sw, b);
    assert s2.poppers == s1.pushers;
    assert Contents(s2.poppers) == [a];
  }
}

=== FILE: stacc_lockfree.dfy ===
/** The lock-free stack with per-node in-flight counters. Nodes are abstract
    addresses into a heap; each atomic operation is one step and every
    compare-and-swap succeeds, unless a step takes the interference as an input. The shared part
    (`StaccInner`) holds `head`, the advisory length and the global garbage
    list; a handle (`Stacc`) holds its local garbage, the popped boxes it may
    reuse for later pushes. */
module RefcountStack {
  import opened Wrappers
  import opened Usize
  import opened Sequences
  import opened LinkedList

  /** `StaccNode<T>`: the successor address, the number of `pop`s currently
      holding the node, and the payload. */
  datatype RcNode<T> = RcNode(next: Option<NodeId>, counter: nat, item: T)

  /** `StaccInner<T>`, together with the allocator's view of memory: `heap`
      maps every allocated box to its contents and `unused` is an address
      never handed out before. */
  datatype Inner<T> = Inner(
    head: Option<NodeId>,
    len: nat,
    globalGarbage: seq<NodeId>,
    heap: map<NodeId, RcNode<T>>,
    unused: NodeId)

  /** `Stacc<T>`: one participant's handle. */
  datatype Handle = Handle(localGarbage: seq<NodeId>)

  function Links<T>(heap: map<NodeId, RcNode<T>>): LinkMap {
    map id | id in heap :: heap[id].next
  }

  lemma LinksUpdate<T>(heap: map<NodeId, RcNode<T>>, id: NodeId, n: RcNode<T>)
    ensures Links(heap[id := n]) == Links(heap)[id := n.next]
  {
  }

  lemma LinksRemove<T>(heap: map<NodeId, RcNode<T>>, gone: set<NodeId>)
    ensures Links(heap - gone) == Links(heap) - gone
  {
  }

  /** `head` starts a null-terminated list of allocated boxes, every counter
      is a `usize`, and `unused` lies above every allocated address. */
  predicate WF<T>(s: Inner<T>) {
    && Walk(Links(s.heap), s.head).Some?
    && (forall id :: id in s.heap ==> s.heap[id].counter < USIZE)
    && (forall id :: id in s.heap ==> id < s.unused)
  }

  /** The boxes on the stack, head first. */
  function Chain<T>(s: Inner<T>): (ids: seq<NodeId>)
    requires WF(s)
    ensures forall k :: 0 <= k < |ids| ==> ids[k] in s.heap
    ensures Distinct(ids)
    ensures s.head.None? <==> ids == []
    ensures s.head.Some? ==> ids[0] == s.head.value
  {
    var ids := Walk(Links(s.heap), s.head).value;
    WalkShape(Links(s.heap), s.head, ids);
    ids
  }

  /** The payloads of `ids`, in order. */
  function Values<T>(heap: map<NodeId, RcNode<T>>, ids: seq<NodeId>): (vs: seq<T>)
    requires forall k :: 0 <= k < |ids| ==> ids[k] in heap
    ensures |vs| == |ids|
    ensures forall k :: 0 <= k < |ids| ==> vs[k] == heap[ids[k]].item
  {
    if ids == [] then [] else [heap[ids[0]].item] + Values(heap, ids[1..])
  }

  /** Changing a counter leaves every successor, hence the stack, as it was. */
  lemma CounterFrame<T>(s: Inner<T>, id: NodeId, c: nat)
    requires WF(s) && id in s.heap && c < USIZE
    ensures var s' := s.(heap := s.heap[id := s.heap[id].(counter := c)]);
            WF(s') && Chain(s') == Chain(s)
  {
    LinksUpdate(s.heap, id, s.heap[id].(counter := c));
    assert Links(s.heap)[id := s.heap[id].next] == Links(s.heap);
  }

  /** `nonnull_to_box`: the box is taken back for freeing only if no `pop`
      holds it; a nonzero counter fails the `assert_eq!`. */
  function NonnullToBox<T>(heap: map<NodeId, RcNode<T>>, id: NodeId): (r: Outcome<map<NodeId, RcNode<T>>>)
    requires id in heap
    ensures r.Panic? <==> heap[id].counter != 0
    ensures r.Return? ==> id !in r.value && r.value.Keys == heap.Keys - {id}
    ensures r.Return? ==> forall x :: x in r.value ==> r.value[x] == heap[x]
  {
    if heap[id].counter != 0 then Panic else Return(heap - {id})
  }

  /** `StaccInner::new` and `Stacc::new`. */
  function New<T>(): (r: (Inner<T>, Handle))
    ensures WF(r.0) && Chain(r.0) == [] && r.0.len == 0
    ensures r.0.globalGarbage == [] && r.1.localGarbage == []
  {
    (Inner(None, 0, [], map[], 0), Handle([]))
  }

  /** What one iteration of `StaccInner::pop`'s loop ends in. */
  datatype Attempt = Empty | Won(id: NodeId) | Lost

  /** Raising a counter by one and lowering it again, both wrapping,
      restores the heap. */
  lemma HoldRelease<T>(heap: map<NodeId, RcNode<T>>, id: NodeId)
    requires id in heap && heap[id].counter < USIZE
    ensures var held := heap[id := heap[id].(counter := WrappingAdd(heap[id].counter, 1))];
            held[id := held[id].(counter := WrappingSub(held[id].counter, 1))] == heap
  {
    var c := heap[id].counter;
    assert WrappingSub(WrappingAdd(c, 1), 1) == c by {
      if c + 1 < USIZE {
        assert WrappingAdd(c, 1) == c + 1;
      } else {
        assert WrappingAdd(c, 1) == 0;
      }
    }
    var held := heap[id := heap[id].(counter := WrappingAdd(c, 1))];
    assert held[id].(counter := WrappingSub(held[id].counter, 1)) == heap[id];
  }

  /** One iteration of `StaccInner::pop`: on a null head it returns `None`;
      otherwise it raises the head's counter, and then either its
      compare-and-swap wins (`won`), moving `head` to the successor and
      dropping the length, or it loses and lowers the counter again, so that
      a lost attempt leaves no trace. */
  function PopAttempt<T>(s: Inner<T>, won: bool): (r: (Inner<T>, Attempt))
    requires WF(s)
    ensures s.head.None? ==> r == (s, Empty)
    ensures s.head.Some? && !won ==> r == (s, Lost)
    ensures s.head.Some? && won ==>
              var h := s.head.value;
              && r.1 == Won(h)
              && WF(r.0) && Chain(r.0) == Chain(s)[1..]
              && r.0.heap == s.heap[h := s.heap[h].(counter := WrappingAdd(s.heap[h].counter, 1))]
              && r.0.len == WrappingSub(s.len, 1)
              && r.0.globalGarbage == s.globalGarbage && r.0.unused == s.unused
  {
    match s.head
    case None => (s, Empty)
    case Some(h) =>
      var node := s.heap[h];
      var s1 := s.(heap := s.heap[h := node.(counter := WrappingAdd(node.counter, 1))]);
      var newhead := node.next;
      if won then
        CounterFrame(s, h, WrappingAdd(node.counter, 1));
        WalkPop(Links(s1.heap), h, Chain(s1));
        (s1.(head := newhead, len := WrappingSub(s1.len, 1)), Won(h))
      else
        var n1 := s1.heap[h];
        var s2 := s1.(heap := s1.heap[h := n1.(counter := WrappingSub(n1.counter, 1))]);
        HoldRelease(s.heap, h);
        (s2, Lost)
  }

  /** `StaccInner::pop` with its compare-and-swap winning: `None` on an empty
      stack, otherwise the head box, now held (its counter one higher) and
      off the stack. */
  function InnerPop<T>(s: Inner<T>): (r: (Inner<T>, Option<NodeId>))
    requires WF(s)
    ensures WF(r.0)
    ensures r.1.None? <==> Chain(s) == []
    ensures r.1.None? ==> r.0 == s
    ensures r.1.Some? ==>
              var h := r.1.value;
              && Chain(s) == [h] + Chain(r.0)
              && r.0.heap == s.heap[h := s.heap[h].(counter := WrappingAdd(s.heap[h].counter, 1))]
              && r.0.len == WrappingSub(s.len, 1)
              && r.0.globalGarbage == s.globalGarbage && r.0.unused == s.unused
  {
    match PopAttempt(s, true)
    case (s', Won(h)) => (s', Some(h))
    case (s', _) => (s', None)
  }

  /** `StaccInner::push` with its compare-and-swap winning at once: the node
      links to the loaded head and becomes the head. */
  function InnerPush<T>(s: Inner<T>, id: NodeId): (r: Inner<T>)
    requires WF(s) && id in s.heap && id !in Chain(s)
    ensures WF(r) && r.head == Some(id) && Chain(r) == [id] + Chain(s)
    ensures r.heap == s.heap[id := s.heap[id].(next := s.head)]
    ensures r.len == WrappingAdd(s.len, 1)
    ensures r.globalGarbage == s.globalGarbage && r.unused == s.unused
  {
    var node := s.heap[id].(next := s.head);
    LinksUpdate(s.heap, id, node);
    WalkPush(Links(s.heap), s.head, Chain(s), id);
    s.(head := Some(id), heap := s.heap[id := node], len := WrappingAdd(s.len, 1))
  }

  /** The retry loop of `StaccInner::push` AS WRITTEN. `observed[k]` is the
      head that the `k`-th compare-and-swap finds; the loop keeps comparing
      against the `expected` head it loaded first and, after each failure,
      relinks the node to the head it found. It succeeds at the first attempt
      that finds `expected` again, and the node then links to whatever the
      previous failed attempt found. `None`: no attempt in `observed` wins. */
  function CasLoopAsWritten(expected: Option<NodeId>, next: Option<NodeId>, observed: seq<Option<NodeId>>): (r: Option<(nat, Option<NodeId>)>)
    ensures r.Some? <==> expected in observed
    ensures r.Some? ==> var (k, n) := r.value;
              && k < |observed| && observed[k] == expected
              && (forall j :: 0 <= j < k ==> observed[j] != expected)
              && n == (if k == 0 then next else observed[k - 1])
    decreases |observed|
  {
    if observed == [] then None
    else if observed[0] == expected then Some((0, next))
    else
      match CasLoopAsWritten(expected, observed[0], observed[1..])
      case None => None
      case Some((k, n)) => Some((k + 1, n))
  }

  /** The retry loop with its expected value refreshed from each failure, as
      `compare_exchange` loops are meant to be written: whenever it
      succeeds, the node links to exactly the head it replaced. */
  function CasLoop(expected: Option<NodeId>, observed: seq<Option<NodeId>>): (r: Option<(nat, Option<NodeId>)>)
    ensures r.Some? ==> var (k, n) := r.value;
              && k < |observed| && n == observed[k]
              && n == (if k == 0 then expected else observed[k - 1])
    ensures (|observed| > 0 && observed[0] == expected) ==> r == Some((0, expected))
    decreases |observed|
  {
    if observed == [] then None
    else if observed[0] == expected then Some((0, expected))
    else
      match CasLoop(observed[0], observed[1..])
      case None => None
      case Some((k, n)) => Some((k + 1, n))
  }

  /** As written, one interfering push and pop between the load and the
      second compare-and-swap makes the loop install the node with a stale
      successor: it replaces head `a` but links to `b`. Under the same
      interference the corrected loop fails once more against `b`, then
      replaces `a` and links to `a`. */
  lemma StaleSuccessorAsWritten(a: Option<NodeId>, b: Option<NodeId>)
    requires a != b
    ensures CasLoopAsWritten(a, a, [b, a]) == Some((1, b))
    ensures CasLoopAsWritten(a, a, [b, a, a]) == Some((1, b))
    ensures CasLoop(a, [b, a, a]) == Some((2, a))
  {
  }

  /** The two loops agree when nothing interferes. */
  lemma CasLoopsAgreeUncontended(head: Option<NodeId>, observed: seq<Option<NodeId>>)
    requires |observed| > 0 && observed[0] == head
    ensures CasLoopAsWritten(head, head, observed) == CasLoop(head, observed) == Some((0, head))
  {
  }

  /** `Stacc::make_node`: the most recently popped box of the handle is
      reused with its payload overwritten (its successor and counter stay),
      or else a fresh box with no successor and counter 0 is allocated. */
  function MakeNode<T>(s: Inner<T>, h: Handle, x: T): (r: (Inner<T>, Handle, NodeId))
    requires forall k :: 0 <= k < |h.localGarbage| ==> h.localGarbage[k] in s.heap
    requires forall id :: id in s.heap ==> id < s.unused
    ensures var (s', h', id) := r;
            && id in s'.heap && s'.heap[id].item == x
            && s' == s.(heap := s'.heap, unused := s'.unused)
    ensures |h.localGarbage| > 0 ==> var (s', h', id) := r;
              && id == h.localGarbage[|h.localGarbage| - 1]
              && h'.localGarbage == h.localGarbage[..|h.localGarbage| - 1]
              && s'.heap == s.heap[id := s.heap[id].(item := x)] && s'.unused == s.unused
    ensures |h.localGarbage| == 0 ==> var (s', h', id) := r;
              && id == s.unused && id !in s.heap && h' == h
              && s'.heap == s.heap[id := RcNode(None, 0, x)] && s'.unused == s.unused + 1
  {
    var n := |h.localGarbage|;
    if n > 0 then
      var id := h.localGarbage[n - 1];
      (s.(heap := s.heap[id := s.heap[id].(item := x)]), h.(localGarbage := h.localGarbage[..n - 1]), id)
    else
      var id := s.unused;
      (s.(heap := s.heap[id := RcNode(None, 0, x)], unused := s.unused + 1), h, id)
  }

  /** `Stacc::pop`: the inner pop, then the box's counter is lowered again
      and the box joins the handle's local garbage; its payload is returned. */
  function Pop<T>(s: Inner<T>, h: Handle): (r: (Inner<T>, Handle, Option<T>))
    requires WF(s)
    ensures WF(r.0)
    ensures r.2.None? <==> Chain(s) == []
    ensures r.2.None? ==> r.0 == s && r.1 == h
    ensures r.2.Some? ==>
              var top := s.head.value;
              && r.2 == Some(s.heap[top].item)
              && Chain(s) == [top] + Chain(r.0)
              && r.0 == s.(head := r.0.head, len := WrappingSub(s.len, 1))
              && r.1.localGarbage == h.localGarbage + [top]
  {
    match InnerPop(s)
    case (s1, None) => (s1, h, None)
    case (s1, Some(id)) =>
      var node := s1.heap[id];
      var s2 := s1.(heap := s1.heap[id := node.(counter := WrappingSub(node.counter, 1))]);
      CounterFrame(s1, id, WrappingSub(node.counter, 1));
      HoldRelease(s.heap, id);
      (s2, h.(localGarbage := h.localGarbage + [id]), Some(s2.heap[id].item))
  }

  /** `Stacc::push`: a node from `make_node`, pushed by the inner push. */
  function Push<T>(s: Inner<T>, h: Handle, x: T): (r: (Inner<T>, Handle))
    requires WF(s)
    requires forall k :: 0 <= k < |h.localGarbage| ==> h.localGarbage[k] in s.heap && h.localGarbage[k] !in Chain(s)
    ensures WF(r.0) && r.0.head.Some?
    ensures Chain(r.0) == [r.0.head.value] + Chain(s)
    ensures Values(r.0.heap, Chain(r.0)) == [x] + Values(s.heap, Chain(s))
    ensures r.0.len == WrappingAdd(s.len, 1)
    ensures r.0.head.value in s.heap ==> r.0.heap[r.0.head.value].counter == s.heap[r.0.head.value].counter
    ensures r.0.head.value !in s.heap ==> r.0.heap[r.0.head.value].counter == 0
    ensures |h.localGarbage| > 0 ==> r.0.head.value == h.localGarbage[|h.localGarbage| - 1] && r.0.heap.Keys == s.heap.Keys
    ensures |h.localGarbage| > 0 ==> r.1.localGarbage == h.localGarbage[..|h.localGarbage| - 1]
    ensures |h.localGarbage| == 0 ==> r.0.head == Some(s.unused) && r.1 == h
    ensures |h.localGarbage| == 0 ==> r.0.heap.Keys == s.heap.Keys + {s.unused} && r.0.unused == s.unused + 1
    ensures forall x :: x in s.heap && x != r.0.head.value ==> r.0.heap[x] == s.heap[x]
    ensures r.0.globalGarbage == s.globalGarbage
  {
    var (s1, h1, id) := MakeNode(s, h, x);
    assert id !in Chain(s) by {
      if |h.localGarbage| > 0 {
        assert id == h.localGarbage[|h.localGarbage| - 1];
      }
    }
    LinksUpdate(s.heap, id, s1.heap[id]);
    assert Links(s1.heap) == Links(s.heap)[id := s1.heap[id].next];
    WalkFrame(Links(s.heap), s.head, Chain(s), id, s1.heap[id].next);
    assert WF(s1) && Chain(s1) == Chain(s);
    var s2 := InnerPush(s1, id);
    assert Values(s2.heap, Chain(s2)) == [x] + Values(s.heap, Chain(s));
    (s2, h1)
  }

  /** `Stacc::len`: the advisory counter. */
  function Len<T>(s: Inner<T>): nat {
    s.len
  }

  /** `Clone for Stacc`: a new handle on the same shared part, with empty
      local garbage. */
  function Clone(h: Handle): (r: Handle)
    ensures r.localGarbage == []
  {
    Handle([])
  }

  /** The box is allocated and no `pop` holds it. */
  predicate Unheld<T>(heap: map<NodeId, RcNode<T>>, id: NodeId) {
    id in heap && heap[id].counter == 0
  }

  /** The loop of `Drop for Stacc`, order kept: boxes no `pop` holds (counter
      0) are freed, the others are deferred to the global garbage. Every box
      goes to exactly one side. */
  function SplitHeld<T>(heap: map<NodeId, RcNode<T>>, xs: seq<NodeId>): (r: (seq<NodeId>, seq<NodeId>))
    requires forall k :: 0 <= k < |xs| ==> xs[k] in heap
    ensures multiset(xs) == multiset(r.0) + multiset(r.1)
    ensures forall k :: 0 <= k < |r.0| ==> Unheld(heap, r.0[k])
    ensures forall k :: 0 <= k < |r.1| ==> r.1[k] in heap && !Unheld(heap, r.1[k])
    decreases |xs|
  {
    if xs == [] then ([], [])
    else
      var (freed, deferred) := SplitHeld(heap, xs[1..]);
      SplitStep(heap, xs, freed, deferred);
      if Unheld(heap, xs[0]) then ([xs[0]] + freed, deferred) else (freed, [xs[0]] + deferred)
  }

  /** One step of the split: the first box joins the side its counter picks. */
  lemma SplitStep<T>(heap: map<NodeId, RcNode<T>>, xs: seq<NodeId>, freed: seq<NodeId>, deferred: seq<NodeId>)
    requires xs != [] && xs[0] in heap
    requires multiset(xs[1..]) == multiset(freed) + multiset(deferred)
    requires forall k :: 0 <= k < |freed| ==> Unheld(heap, freed[k])
    requires forall k :: 0 <= k < |deferred| ==> deferred[k] in heap && !Unheld(heap, deferred[k])
    ensures multiset(xs) == multiset([xs[0]] + freed) + multiset(deferred)
    ensures multiset(xs) == multiset(freed) + multiset([xs[0]] + deferred)
    ensures Unheld(heap, xs[0]) ==> forall k :: 0 <= k < |[xs[0]] + freed| ==> Unheld(heap, ([xs[0]] + freed)[k])
    ensures !Unheld(heap, xs[0]) ==>
              forall k :: 0 <= k < |[xs[0]] + deferred| ==>
                ([xs[0]] + deferred)[k] in heap && !Unheld(heap, ([xs[0]] + deferred)[k])
  {
    assert xs == [xs[0]] + xs[1..];
  }

  /** `Drop for Stacc`: the handle's local garbage is split; the free boxes
      leave the heap and the held ones are appended to the global garbage. */
  function DropHandle<T>(s: Inner<T>, h: Handle): (r: (Inner<T>, seq<NodeId>))
    requires forall k :: 0 <= k < |h.localGarbage| ==> h.localGarbage[k] in s.heap
    ensures var (s', freed) := r;
            && |s.globalGarbage| <= |s'.globalGarbage| && s'.globalGarbage[..|s.globalGarbage|] == s.globalGarbage
            && multiset(s'.globalGarbage[|s.globalGarbage|..]) + multiset(freed) == multiset(h.localGarbage)
            && (forall k :: 0 <= k < |freed| ==> Unheld(s.heap, freed[k]))
            && (forall k :: |s.globalGarbage| <= k < |s'.globalGarbage| ==> !Unheld(s.heap, s'.globalGarbage[k]))
            && s' == s.(globalGarbage := s'.globalGarbage, heap := s.heap - Elems(freed))
  {
    var (freed, deferred) := SplitHeld(s.heap, h.localGarbage);
    var s' := s.(globalGarbage := s.globalGarbage + deferred, heap := s.heap - Elems(freed));
    assert s'.globalGarbage[|s.globalGarbage|..] == deferred;
    (s', freed)
  }

  /** Freeing boxes that are off the stack leaves the stack as it was. */
  lemma FreeOffStack<T>(s: Inner<T>, gone: set<NodeId>)
    requires WF(s) && forall x :: x in gone ==> x !in Chain(s)
    ensures WF(s.(heap := s.heap - gone)) && Chain(s.(heap := s.heap - gone)) == Chain(s)
  {
    LinksRemove(s.heap, gone);
    WalkForget(Links(s.heap), s.head, Chain(s), gone);
  }

  /** The first loop of `Drop for StaccInner`: every box of the global
      garbage goes through `nonnull_to_box`, in order; it panics at the first
      box some `pop` still holds. */
  function ReclaimAll<T>(heap: map<NodeId, RcNode<T>>, ids: seq<NodeId>): (r: Outcome<map<NodeId, RcNode<T>>>)
    requires Distinct(ids) && forall k :: 0 <= k < |ids| ==> ids[k] in heap
    ensures r.Return? <==> forall k :: 0 <= k < |ids| ==> heap[ids[k]].counter == 0
    ensures r.Return? ==> r.value == heap - Elems(ids)
    decreases |ids|
  {
    if ids == [] then Return(heap)
    else
      match NonnullToBox(heap, ids[0])
      case Panic => Panic
      case Return(heap1) =>
        assert forall k :: 0 <= k < |ids[1..]| ==> ids[1..][k] == ids[k + 1] && ids[k + 1] != ids[0];
        var r := ReclaimAll(heap1, ids[1..]);
        ElemsCons(ids);
        r
  }

  /** The second loop of `Drop for StaccInner` AS WRITTEN: each box comes
      from the inner `pop`, which has just raised its counter, and goes
      straight to `nonnull_to_box`, which demands counter 0. */
  function DrainAsWritten<T>(s: Inner<T>): (r: Outcome<seq<NodeId>>)
    requires WF(s)
    ensures Chain(s) == [] ==> r == Return([])
    ensures Chain(s) != [] && s.heap[Chain(s)[0]].counter == 0 ==> r.Panic?
    decreases |Chain(s)|
  {
    match InnerPop(s)
    case (_, None) => Return([])
    case (s1, Some(id)) =>
      match NonnullToBox(s1.heap, id)
      case Panic => Panic
      case Return(heap) =>
        FreeOffStack(s1, {id});
        assert s1.heap - {id} == heap;
        match DrainAsWritten(s1.(heap := heap))
        case Panic => Panic
        case Return(rest) => Return([id] + rest)
  }

  /** The second loop with the counter lowered again before the box is
      freed, as `Stacc::pop` does: every box on the stack is freed once, in
      stack order, provided no `pop` holds any of them. */
  function Drain<T>(s: Inner<T>): (r: Outcome<seq<NodeId>>)
    requires WF(s)
    ensures r.Return? <==> forall k :: 0 <= k < |Chain(s)| ==> s.heap[Chain(s)[k]].counter == 0
    ensures r.Return? ==> r.value == Chain(s)
    decreases |Chain(s)|
  {
    match InnerPop(s)
    case (_, None) => Return([])
    case (s1, Some(id)) =>
      var node := s1.heap[id];
      var s2 := s1.(heap := s1.heap[id := node.(counter := WrappingSub(node.counter, 1))]);
      HoldRelease(s.heap, id);
      match NonnullToBox(s2.heap, id)
      case Panic => Panic
      case Return(heap) =>
        FreeOffStack(s1, {id});
        assert s1.heap - {id} == heap;
        var s3 := s1.(heap := heap);
        assert forall x :: x in s3.heap ==> s3.heap[x] == s.heap[x];
        match Drain(s3)
        case Panic => Panic
        case Return(rest) => Return([id] + rest)
  }

  /** `Drop for StaccInner` AS WRITTEN: the global garbage, then the stack. */
  function InnerDropAsWritten<T>(s: Inner<T>): (r: Outcome<seq<NodeId>>)
    requires WF(s) && Distinct(s.globalGarbage)
    requires forall k :: 0 <= k < |s.globalGarbage| ==> s.globalGarbage[k] in s.heap && s.globalGarbage[k] !in Chain(s)
    ensures (forall id :: id in s.heap ==> s.heap[id].counter == 0) ==> (r.Panic? <==> Chain(s) != [])
  {
    match ReclaimAll(s.heap, s.globalGarbage)
    case Panic => Panic
    case Return(heap) =>
      FreeOffStack(s, Elems(s.globalGarbage));
      match DrainAsWritten(s.(heap := heap))
      case Panic => Panic
      case Return(rest) => Return(s.globalGarbage + rest)
  }

  /** `Drop for StaccInner` with the corrected second loop: when no `pop`
      holds any box, it frees the global garbage and then the stack, each box
      once. */
  function InnerDrop<T>(s: Inner<T>): (r: Outcome<seq<NodeId>>)
    requires WF(s) && Distinct(s.globalGarbage)
    requires forall k :: 0 <= k < |s.globalGarbage| ==> s.globalGarbage[k] in s.heap && s.globalGarbage[k] !in Chain(s)
    ensures (forall id :: id in s.heap ==> s.heap[id].counter == 0) ==> r == Return(s.globalGarbage + Chain(s))
  {
    match ReclaimAll(s.heap, s.globalGarbage)
    case Panic => Panic
    case Return(heap) =>
      FreeOffStack(s, Elems(s.globalGarbage));
      var s1 := s.(heap := heap);
      assert forall x :: x in s1.heap ==> s1.heap[x] == s.heap[x];
      match Drain(s1)
      case Panic => Panic
      case Return(rest) => Return(s.globalGarbage + rest)
  }

  /** The whole structure between operations: the shared part and the live
      handles. */
  datatype System<T> = System(inner: Inner<T>, handles: seq<Handle>)

  /** Every box in some handle's local garbage, counted with multiplicity. */
  function GarbageBag(hs: seq<Handle>): multiset<NodeId> {
    if hs == [] then multiset{} else multiset(hs[0].localGarbage) + GarbageBag(hs[1..])
  }

  /** Every box the structure is responsible for: on the stack, in the
      global garbage, or in a handle's local garbage. */
  function Owned<T>(sys: System<T>): multiset<NodeId>
    requires WF(sys.inner)
  {
    multiset(Chain(sys.inner)) + multiset(sys.inner.globalGarbage) + GarbageBag(sys.handles)
  }

  /** Between operations no `pop` is in flight, so no box is held. */
  predicate Idle<T>(heap: map<NodeId, RcNode<T>>) {
    forall id :: id in heap ==> heap[id].counter == 0
  }

  /** The sequential invariant: every allocated box is owned in exactly one
      place, every counter is back at 0, and the advisory length is the
      stack's length. */
  predicate Inv<T>(sys: System<T>) {
    && WF(sys.inner)
    && Idle(sys.inner.heap)
    && Owned(sys) == multiset(sys.inner.heap.Keys)
    && sys.inner.len == |Chain(sys.inner)| % USIZE
  }

  /** The payloads on the stack, top first. */
  function Contents<T>(sys: System<T>): seq<T>
    requires WF(sys.inner)
  {
    Values(sys.inner.heap, Chain(sys.inner))
  }

  lemma GarbageBagUpdate(hs: seq<Handle>, i: nat, h: Handle)
    requires i < |hs|
    ensures GarbageBag(hs[i := h]) + multiset(hs[i].localGarbage) == GarbageBag(hs) + multiset(h.localGarbage)
  {
    var pre, post := hs[..i], hs[i + 1..];
    GarbageBagSplit(hs, i);
    GarbageBagSplit(hs[i := h], i);
    assert hs[i := h][..i] == pre && hs[i := h][i + 1..] == post;
    BagExchange(GarbageBag(pre), multiset(h.localGarbage), multiset(hs[i].localGarbage), GarbageBag(post));
  }

  /** A handle that gave up the boxes `extra`. */
  lemma GarbageBagShrink(hs: seq<Handle>, i: nat, h: Handle, extra: multiset<NodeId>)
    requires i < |hs| && multiset(hs[i].localGarbage) == multiset(h.localGarbage) + extra
    ensures GarbageBag(hs[i := h]) + extra == GarbageBag(hs)
  {
    GarbageBagUpdate(hs, i, h);
    forall z
      ensures (GarbageBag(hs[i := h]) + extra)[z] == GarbageBag(hs)[z]
    {
      assert (GarbageBag(hs[i := h]) + multiset(hs[i].localGarbage))[z] == (GarbageBag(hs) + multiset(h.localGarbage))[z];
    }
  }

  /** A handle that took on the boxes `extra`. */
  lemma GarbageBagGrow(hs: seq<Handle>, i: nat, h: Handle, extra: multiset<NodeId>)
    requires i < |hs| && multiset(h.localGarbage) == multiset(hs[i].localGarbage) + extra
    ensures GarbageBag(hs[i := h]) == GarbageBag(hs) + extra
  {
    GarbageBagUpdate(hs, i, h);
    forall z
      ensures GarbageBag(hs[i := h])[z] == (GarbageBag(hs) + extra)[z]
    {
      assert (GarbageBag(hs[i := h]) + multiset(hs[i].localGarbage))[z] == (GarbageBag(hs) + multiset(h.localGarbage))[z];
    }
  }

  lemma {:induction false} GarbageBagConcat(a: seq<Handle>, b: seq<Handle>)
    ensures GarbageBag(a + b) == GarbageBag(a) + GarbageBag(b)
  {
    if a == [] {
      assert a + b == b;
    } else {
      assert (a + b)[0] == a[0];
      assert (a + b)[1..] == a[1..] + b;
      GarbageBagConcat(a[1..], b);
      BagRegroup(multiset(a[0].localGarbage), GarbageBag(a[1..]), GarbageBag(b));
    }
  }

  lemma GarbageBagSingle(h: Handle)
    ensures GarbageBag([h]) == multiset(h.localGarbage)
  {
    assert [h][1..] == [];
  }

  /** The bag of handle `i` separated from those before and after it. */
  lemma GarbageBagSplit(hs: seq<Handle>, i: nat)
    requires i < |hs|
    ensures GarbageBag(hs) == GarbageBag(hs[..i]) + multiset(hs[i].localGarbage) + GarbageBag(hs[i + 1..])
  {
    var pre, mid, post := hs[..i], [hs[i]], hs[i + 1..];
    assert hs == pre + (mid + post);
    var a, m, b := GarbageBag(pre), multiset(hs[i].localGarbage), GarbageBag(post);
    GarbageBagConcat(pre, mid + post);
    GarbageBagConcat(mid, post);
    GarbageBagSingle(hs[i]);
    assert GarbageBag(hs) == a + (m + b);
    BagRegroup(a, m, b);
  }

  lemma GarbageBagRemove(hs: seq<Handle>, i: nat)
    requires i < |hs|
    ensures GarbageBag(hs) == GarbageBag(hs[..i] + hs[i + 1..]) + multiset(hs[i].localGarbage)
  {
    GarbageBagSplit(hs, i);
    GarbageBagConcat(hs[..i], hs[i + 1..]);
    BagRegroup(GarbageBag(hs[..i]), multiset(hs[i].localGarbage), GarbageBag(hs[i + 1..]));
  }

  lemma GarbageBagAppend(hs: seq<Handle>, h: Handle)
    ensures GarbageBag(hs + [h]) == GarbageBag(hs) + multiset(h.localGarbage)
  {
    GarbageBagConcat(hs, [h]);
    GarbageBagSingle(h);
  }

  /** A sequence whose every element is counted at most once has no repeats. */
  lemma DistinctFromCount(xs: seq<NodeId>)
    requires forall x :: multiset(xs)[x] <= 1
    ensures Distinct(xs)
  {
    forall i, j | 0 <= i < j < |xs|
      ensures xs[i] != xs[j]
    {
      assert xs == xs[..j] + xs[j..];
      assert xs[..j][i] == xs[i] && xs[j..][0] == xs[j];
      assert multiset(xs)[xs[i]] == multiset(xs[..j])[xs[i]] + multiset(xs[j..])[xs[i]];
      assert multiset(xs[..j])[xs[i]] >= 1 && multiset(xs[j..])[xs[j]] >= 1;
    }
  }

  /** Where each owned box lives: the local and global garbage are
      allocated and off the stack, and the global garbage has no repeats. */
  lemma OwnedParts<T>(sys: System<T>)
    requires WF(sys.inner) && Owned(sys) == multiset(sys.inner.heap.Keys)
    ensures forall i, k :: 0 <= i < |sys.handles| && 0 <= k < |sys.handles[i].localGarbage| ==>
              sys.handles[i].localGarbage[k] in sys.inner.heap && sys.handles[i].localGarbage[k] !in Chain(sys.inner)
    ensures forall k :: 0 <= k < |sys.inner.globalGarbage| ==>
              sys.inner.globalGarbage[k] in sys.inner.heap && sys.inner.globalGarbage[k] !in Chain(sys.inner)
    ensures Distinct(sys.inner.globalGarbage)
  {
    var s := sys.inner;
    var chain := multiset(Chain(s));
    var gg := multiset(s.globalGarbage);
    forall i, k | 0 <= i < |sys.handles| && 0 <= k < |sys.handles[i].localGarbage|
      ensures sys.handles[i].localGarbage[k] in s.heap && sys.handles[i].localGarbage[k] !in Chain(s)
    {
      var h := sys.handles[i];
      var x := h.localGarbage[k];
      var e := Handle([]);
      GarbageBagUpdate(sys.handles, i, e);
      assert (GarbageBag(sys.handles[i := e]) + multiset(h.localGarbage))[x] == GarbageBag(sys.handles)[x];
      assert multiset(h.localGarbage)[x] >= 1;
      assert Owned(sys)[x] == chain[x] + gg[x] + GarbageBag(sys.handles)[x];
    }
    forall k | 0 <= k < |s.globalGarbage|
      ensures s.globalGarbage[k] in s.heap && s.globalGarbage[k] !in Chain(s)
    {
      var x := s.globalGarbage[k];
      assert gg[x] >= 1;
      assert Owned(sys)[x] == chain[x] + gg[x] + GarbageBag(sys.handles)[x];
    }
    forall x
      ensures gg[x] <= 1
    {
      assert Owned(sys)[x] == chain[x] + gg[x] + GarbageBag(sys.handles)[x];
    }
    DistinctFromCount(s.globalGarbage);
  }

  /** `Stacc::new` as a whole structure: the shared stack and its first handle. */
  function SysNew<T>(): System<T>
  {
    var init := New<T>();
    System(init.0, [init.1])
  }

  /** A new stack with its first handle satisfies the ownership invariant
      and holds no value. */
  lemma SysNewInv<T>(sys: System<T>)
    requires sys == SysNew<T>()
    ensures Inv(sys) && |sys.handles| == 1 && Contents(sys) == []
  {
    assert GarbageBag(sys.handles) == multiset{};
  }

  /** Ownership after a push that reused a box from handle `i`'s garbage. */
  lemma ReusedOwnership<T>(sys: System<T>, i: nat, sNew: Inner<T>, hNew: Handle)
    requires WF(sys.inner) && Owned(sys) == multiset(sys.inner.heap.Keys)
    requires WF(sNew) && sNew.head.Some? && Chain(sNew) == [sNew.head.value] + Chain(sys.inner)
    requires sNew.globalGarbage == sys.inner.globalGarbage && sNew.heap.Keys == sys.inner.heap.Keys
    requires i < |sys.handles| && sys.handles[i].localGarbage == hNew.localGarbage + [sNew.head.value]
    ensures Owned(System(sNew, sys.handles[i := hNew])) == multiset(sNew.heap.Keys)
  {
    var top := sNew.head.value;
    var hs' := sys.handles[i := hNew];
    var chain := multiset(Chain(sys.inner));
    var gg := multiset(sNew.globalGarbage);
    GarbageBagShrink(sys.handles, i, hNew, multiset{top});
    calc {
      Owned(System(sNew, hs'));
      multiset(Chain(sNew)) + gg + GarbageBag(hs');
      { assert multiset(Chain(sNew)) == multiset{top} + chain; }
      chain + gg + (GarbageBag(hs') + multiset{top});
      chain + gg + GarbageBag(sys.handles);
    }
  }

  /** Ownership after a push that allocated the fresh box at the head. */
  lemma FreshOwnership<T>(sys: System<T>, sNew: Inner<T>)
    requires WF(sys.inner) && Owned(sys) == multiset(sys.inner.heap.Keys)
    requires WF(sNew) && sNew.head.Some? && Chain(sNew) == [sNew.head.value] + Chain(sys.inner)
    requires sNew.globalGarbage == sys.inner.globalGarbage
    requires sNew.head.value !in sys.inner.heap.Keys && sNew.heap.Keys == sys.inner.heap.Keys + {sNew.head.value}
    ensures Owned(System(sNew, sys.handles)) == multiset(sNew.heap.Keys)
  {
    var top := sNew.head.value;
    var a, g, b := multiset(Chain(sys.inner)), multiset(sys.inner.globalGarbage), GarbageBag(sys.handles);
    assert multiset(Chain(sNew)) == multiset{top} + a;
    BagRotate(multiset{top}, a, g, b);
    BagAddKey(sys.inner.heap.Keys, top);
  }

  lemma PushKeepsOwnership<T>(sys: System<T>, i: nat, x: T)
    requires WF(sys.inner) && Owned(sys) == multiset(sys.inner.heap.Keys) && i < |sys.handles|
    ensures forall k :: 0 <= k < |sys.handles[i].localGarbage| ==>
              sys.handles[i].localGarbage[k] in sys.inner.heap && sys.handles[i].localGarbage[k] !in Chain(sys.inner)
    ensures var (s', h') := Push(sys.inner, sys.handles[i], x);
            Owned(System(s', sys.handles[i := h'])) == multiset(s'.heap.Keys)
  {
    OwnedParts(sys);
    var h := sys.handles[i];
    var r := Push(sys.inner, h, x);
    if |h.localGarbage| > 0 {
      assert h.localGarbage == r.1.localGarbage + [r.0.head.value];
      ReusedOwnership(sys, i, r.0, r.1);
    } else {
      assert sys.handles[i := r.1] == sys.handles;
      FreshOwnership(sys, r.0);
    }
  }

  /** A push through handle `i` keeps the invariant and puts `x` on top. */
  function SysPush<T>(sys: System<T>, i: nat, x: T): (r: System<T>)
    requires Inv(sys) && i < |sys.handles|
    ensures Inv(r) && |r.handles| == |sys.handles|
    ensures Contents(r) == [x] + Contents(sys)
  {
    PushKeepsOwnership(sys, i, x);
    var pushed := Push(sys.inner, sys.handles[i], x);
    PushKeepsIdle(sys.inner, pushed.0);
    ModStep(|Chain(sys.inner)|);
    System(pushed.0, sys.handles[i := pushed.1])
  }

  /** A push leaves every counter at 0: the linked box keeps its counter, or
      starts at 0 when fresh, and no other box changes. */
  lemma PushKeepsIdle<T>(s: Inner<T>, sNew: Inner<T>)
    requires Idle(s.heap) && sNew.head.Some?
    requires sNew.head.value in sNew.heap && s.heap.Keys <= sNew.heap.Keys <= s.heap.Keys + {sNew.head.value}
    requires sNew.head.value in s.heap ==> sNew.heap[sNew.head.value].counter == s.heap[sNew.head.value].counter
    requires sNew.head.value !in s.heap ==> sNew.heap[sNew.head.value].counter == 0
    requires forall x :: x in s.heap && x != sNew.head.value ==> sNew.heap[x] == s.heap[x]
    ensures Idle(sNew.heap)
  {
  }

  lemma PopKeepsOwnership<T>(sys: System<T>, i: nat)
    requires WF(sys.inner) && Owned(sys) == multiset(sys.inner.heap.Keys)
    requires i < |sys.handles| && Chain(sys.inner) != []
    ensures var (s', h', item) := Pop(sys.inner, sys.handles[i]);
            Owned(System(s', sys.handles[i := h'])) == multiset(s'.heap.Keys)
  {
    var s := sys.inner;
    var (s', h', item) := Pop(s, sys.handles[i]);
    var top := s.head.value;
    GarbageBagGrow(sys.handles, i, h', multiset{top});
    assert multiset(Chain(s)) == multiset{top} + multiset(Chain(s'));
  }

  /** A pop through handle `i` keeps the invariant and takes the top payload
      off, or reports empty and changes nothing. */
  function SysPop<T>(sys: System<T>, i: nat): (r: (System<T>, Option<T>))
    requires Inv(sys) && i < |sys.handles|
    ensures Inv(r.0) && |r.0.handles| == |sys.handles|
    ensures r.1.None? <==> Contents(sys) == []
    ensures r.1.None? ==> r.0 == sys
    ensures r.1.Some? ==> Contents(sys) == [r.1.value] + Contents(r.0)
  {
    var (s', h', item) := Pop(sys.inner, sys.handles[i]);
    if item.None? then
      (sys, None)
    else
      var r := System(s', sys.handles[i := h']);
      PopKeepsOwnership(sys, i);
      ModStep(|Chain(sys.inner)|);
      (r, item)
  }

  /** A clone adds a handle with no garbage and changes nothing else. */
  function SysClone<T>(sys: System<T>, i: nat): (r: System<T>)
    requires Inv(sys) && i < |sys.handles|
    ensures Inv(r) && |r.handles| == |sys.handles| + 1 && Contents(r) == Contents(sys)
  {
    var h := Clone(sys.handles[i]);
    GarbageBagAppend(sys.handles, h);
    System(sys.inner, sys.handles + [h])
  }

  /** Ownership after handle `i` frees `freed` and leaves. */
  lemma DroppedOwnership<T>(sys: System<T>, i: nat, sNew: Inner<T>, freed: seq<NodeId>)
    requires WF(sys.inner) && Owned(sys) == multiset(sys.inner.heap.Keys) && i < |sys.handles|
    requires multiset(freed) == multiset(sys.handles[i].localGarbage)
    requires WF(sNew) && Chain(sNew) == Chain(sys.inner) && sNew.globalGarbage == sys.inner.globalGarbage
    requires sNew.heap.Keys == sys.inner.heap.Keys - Elems(freed)
    ensures Owned(System(sNew, sys.handles[..i] + sys.handles[i + 1..])) == multiset(sNew.heap.Keys)
    ensures multiset(freed) + multiset(sNew.heap.Keys) == multiset(sys.inner.heap.Keys)
  {
    var rest := sys.handles[..i] + sys.handles[i + 1..];
    GarbageBagRemove(sys.handles, i);
    var own := Owned(System(sNew, rest));
    var chain := multiset(Chain(sys.inner));
    var gg := multiset(sys.inner.globalGarbage);
    calc {
      own + multiset(freed);
      chain + gg + GarbageBag(rest) + multiset(freed);
      chain + gg + (GarbageBag(rest) + multiset(sys.handles[i].localGarbage));
      chain + gg + GarbageBag(sys.handles);
    }
    MultisetMinusSet(own, freed, sys.inner.heap.Keys);
  }

  lemma DropKeepsOwnership<T>(sys: System<T>, i: nat)
    requires Inv(sys) && i < |sys.handles|
    ensures forall k :: 0 <= k < |sys.handles[i].localGarbage| ==> sys.handles[i].localGarbage[k] in sys.inner.heap
    ensures var (s', freed) := DropHandle(sys.inner, sys.handles[i]);
            && WF(s') && Chain(s') == Chain(sys.inner) && s'.globalGarbage == sys.inner.globalGarbage
            && Owned(System(s', sys.handles[..i] + sys.handles[i + 1..])) == multiset(s'.heap.Keys)
            && multiset(freed) + multiset(s'.heap.Keys) == multiset(sys.inner.heap.Keys)
  {
    var s := sys.inner;
    var h := sys.handles[i];
    OwnedParts(sys);
    var (s', freed) := DropHandle(s, h);
    var deferred := s'.globalGarbage[|s.globalGarbage|..];
    assert |deferred| == 0;
    assert s'.globalGarbage == s.globalGarbage;
    assert forall x :: x in Elems(freed) ==> x !in Chain(s) by {
      forall x | x in Elems(freed) ensures x !in Chain(s) {
        assert multiset(freed)[x] >= 1;
        assert multiset(h.localGarbage)[x] >= 1;
      }
    }
    FreeOffStack(s, Elems(freed));
    assert s' == s.(heap := s.heap - Elems(freed));
    DroppedOwnership(sys, i, s', freed);
  }

  /** Dropping handle `i` keeps the invariant. With no `pop` in flight
      nothing is deferred: every box of its local garbage is freed, and the
      freed boxes and those left allocated are the boxes allocated before. */
  function SysDropHandle<T>(sys: System<T>, i: nat): (r: (System<T>, seq<NodeId>))
    requires Inv(sys) && i < |sys.handles|
    ensures Inv(r.0) && |r.0.handles| == |sys.handles| - 1
    ensures multiset(r.1) == multiset(sys.handles[i].localGarbage)
    ensures r.0.inner.globalGarbage == sys.inner.globalGarbage
    ensures multiset(r.1) + multiset(r.0.inner.heap.Keys) == multiset(sys.inner.heap.Keys)
    ensures Contents(r.0) == Contents(sys)
  {
    DropKeepsOwnership(sys, i);
    var (s', freed) := DropHandle(sys.inner, sys.handles[i]);
    (System(s', sys.handles[..i] + sys.handles[i + 1..]), freed)
  }

  /** With every handle gone, the corrected `Drop for StaccInner` frees
      exactly the boxes still allocated. */
  function LastDrop<T>(sys: System<T>): (freed: seq<NodeId>)
    requires Inv(sys) && sys.handles == []
    ensures multiset(freed) == multiset(sys.inner.heap.Keys)
  {
    OwnedParts(sys);
    assert GarbageBag(sys.handles) == multiset{};
    InnerDrop(sys.inner).value
  }

  /** Tearing the structure down, every handle dropped and then the shared
      part with the corrected second loop, frees every allocated box exactly
      once and never panics. */
  method Teardown<T>(sys: System<T>) returns (freed: seq<NodeId>)
    requires Inv(sys)
    ensures multiset(freed) == multiset(sys.inner.heap.Keys)
  {
    var cur := sys;
    freed := [];
    while |cur.handles| > 0
      invariant Inv(cur)
      invariant multiset(freed) + multiset(cur.inner.heap.Keys) == multiset(sys.inner.heap.Keys)
      decreases |cur.handles|
    {
      var (next, f) := SysDropHandle(cur, |cur.handles| - 1);
      freed := freed + f;
      cur := next;
    }
    var rest := LastDrop(cur);
    freed := freed + rest;
  }

  /** As written, tearing down the shared part after the last handle is gone
      panics exactly when the stack still holds a value: the first box the
      second loop pops has counter 1 when `nonnull_to_box` checks it. */
  lemma NonEmptyTeardownPanicsAsWritten<T>(sys: System<T>)
    requires Inv(sys) && sys.handles == []
    ensures Distinct(sys.inner.globalGarbage)
    ensures forall k :: 0 <= k < |sys.inner.globalGarbage| ==>
              sys.inner.globalGarbage[k] in sys.inner.heap && sys.inner.globalGarbage[k] !in Chain(sys.inner)
    ensures InnerDropAsWritten(sys.inner).Panic? <==> Contents(sys) != []
  {
    OwnedParts(sys);
  }

  /** Pushes `xs` in order through handle `i`. */
  function SysPushAll<T>(sys: System<T>, i: nat, xs: seq<T>): (r: System<T>)
    requires Inv(sys) && i < |sys.handles|
    ensures Inv(r) && |r.handles| == |sys.handles|
    ensures Contents(r) == Reverse(xs) + Contents(sys)
    decreases |xs|
  {
    if xs == [] then sys
    else
      var first := SysPush(sys, i, xs[0]);
      var r := SysPushAll(first, i, xs[1..]);
      PushedOnTop(xs, Contents(r), Contents(first), Contents(sys));
      r
  }

  /** Pops `k` times through handle `i`, collecting the results: they are
      what `k` pops from the value list return, and the values left are what
      those pops leave. */
  function SysPopN<T>(sys: System<T>, i: nat, k: nat): (r: (System<T>, seq<Option<T>>))
    requires Inv(sys) && i < |sys.handles|
    ensures Inv(r.0) && |r.0.handles| == |sys.handles|
    ensures r.1 == Pops(Contents(sys), k)
    ensures Contents(r.0) == Remains(Contents(sys), k)
    decreases k
  {
    if k == 0 then (sys, [])
    else
      var p := SysPop(sys, i);
      var q := SysPopN(p.0, i, k - 1);
      PopStep(k, Contents(sys), p.1, Contents(p.0));
      (q.0, [p.1] + q.1)
  }

  /** Last in, first out: pushing `xs` and then popping as many times gives
      `xs` back in reverse, and leaves the stack as it was. */
  lemma Lifo<T>(sys: System<T>, i: nat, xs: seq<T>)
    requires Inv(sys) && i < |sys.handles|
    ensures var (r, popped) := SysPopN(SysPushAll(sys, i, xs), i, |xs|);
            && popped == Somes(Reverse(xs))
            && Contents(r) == Contents(sys)
  {
    var pushed := SysPushAll(sys, i, xs);
    PopsShape(Contents(pushed), |xs|);
    assert Contents(pushed)[..|xs|] == Reverse(xs);
    assert Contents(pushed)[|xs|..] == Contents(sys);
  }

  /** Popped boxes are reused: after a pop, the next push through the same
      handle links the very box it popped back in, carrying the new payload,
      and allocates nothing. */
  lemma PopThenPushReuses<T>(sys: System<T>, i: nat, x: T)
    requires Inv(sys) && i < |sys.handles| && Contents(sys) != []
    ensures var (s1, _) := SysPop(sys, i);
            var s2 := SysPush(s1, i, x);
            && s2.inner.head == sys.inner.head
            && s2.inner.heap.Keys == sys.inner.heap.Keys
            && Contents(s2) == [x] + Contents(sys)[1..]
  {
  }
}

=== FILE: stacc_lockfree_ebr.dfy ===
/** Epoch-based reclamation bookkeeping. The shared part holds one `u8` epoch
    slot per thread and the global `u8` epoch; a participant (`Local`) keeps
    four limbo buckets of deferred pointers and a list of reclaimed ones. A
    slot stores `(epoch << 1) | 1` while its thread is inside a critical
    section: bit 0 is the active bit and the upper seven bits the epoch it
    observed. Every atomic operation is one step. */
module EpochReclaim {
  import opened Wrappers

  /** A deferred raw pointer, as an abstract address. */
  type Ptr = nat

  /** Number of epoch slots. */
  const MAX_THREADS: nat := 32
  /** Number of limbo buckets. */
  const BUCKETS: nat := 4

  /** `Shared<T>`: the slot table, the global epoch, the participant counter
      and the garbage handed over by departed participants. */
  datatype Shared = Shared(
    threadEpochs: seq<bv8>,
    globalEpoch: bv8,
    threadCounter: nat,
    globalGarbage: seq<seq<Ptr>>)

  /** `Local<T>`: one participant's limbo buckets, slot number and the
      pointers it has taken back for freeing. */
  datatype Local = Local(limbo: seq<seq<Ptr>>, threadId: nat, garbage: seq<Ptr>)

  /** The fixed-size arrays of the source: 32 slots and four buckets. */
  predicate SharedWF(s: Shared) {
    |s.threadEpochs| == MAX_THREADS && |s.globalGarbage| == BUCKETS
  }

  predicate LocalWF(l: Local) {
    |l.limbo| == BUCKETS
  }

  /** The slot value `mark_use` stores for global epoch `g`. */
  function Encode(g: bv8): bv8 {
    (g << 1) | 1
  }

  /** Bit 0 of a slot: its thread is inside a critical section. */
  predicate Active(e: bv8) {
    e & 1 == 1
  }

  /** The epoch a slot records. */
  function Observed(e: bv8): bv8 {
    e >> 1
  }

  /** The seven low bits of an epoch: what a slot can record of it. */
  function Low7(g: bv8): bv8 {
    g & 127
  }

  /** The encoding keeps the active bit and only the low seven bits of the
      epoch: it is faithful below 128 and loses bit 7 from 128 on. */
  lemma EncodeFacts(g: bv8)
    ensures Active(Encode(g))
    ensures Observed(Encode(g)) == Low7(g)
    ensures Observed(Encode(g)) == g <==> g < 128
  {
  }

  /** The loop of `have_all_observed_epoch`: inactive slots are skipped and
      the scan fails at the first active slot whose epoch is not `value`. */
  function AllObservedAsWritten(epochs: seq<bv8>, value: bv8): (b: bool)
    ensures b <==> forall k :: 0 <= k < |epochs| && Active(epochs[k]) ==> Observed(epochs[k]) == value
    decreases |epochs|
  {
    if epochs == [] then true
    else if !Active(epochs[0]) then AllObservedAsWritten(epochs[1..], value)
    else if Observed(epochs[0]) != value then false
    else AllObservedAsWritten(epochs[1..], value)
  }

  /** `have_all_observed_epoch` AS WRITTEN: when every active slot records
      `value`, the global epoch goes up by one (wrapping at 256) and the
      answer is true; otherwise nothing changes. The slots record seven
      bits, so for `value >= 128` no active slot ever matches. */
  function HaveAllObservedAsWritten(s: Shared, value: bv8): (r: (Shared, bool))
    ensures r.1 <==> forall k :: 0 <= k < |s.threadEpochs| && Active(s.threadEpochs[k]) ==> Observed(s.threadEpochs[k]) == value
    ensures r.1 ==> r.0 == s.(globalEpoch := s.globalEpoch + 1)
    ensures !r.1 ==> r.0 == s
  {
    if AllObservedAsWritten(s.threadEpochs, value) then (s.(globalEpoch := s.globalEpoch + 1), true)
    else (s, false)
  }

  /** The scan compared against the seven bits a slot can hold. */
  function AllObserved(epochs: seq<bv8>, value: bv8): (b: bool)
    ensures b <==> forall k :: 0 <= k < |epochs| && Active(epochs[k]) ==> Observed(epochs[k]) == Low7(value)
    decreases |epochs|
  {
    if epochs == [] then true
    else if !Active(epochs[0]) then AllObserved(epochs[1..], value)
    else if Observed(epochs[0]) != Low7(value) then false
    else AllObserved(epochs[1..], value)
  }

  /** `have_all_observed_epoch` comparing the seven recorded bits: the
      answer is true exactly when every active slot records `value` modulo
      128, and then the global epoch goes up by one. */
  function HaveAllObserved(s: Shared, value: bv8): (r: (Shared, bool))
    ensures r.1 <==> forall k :: 0 <= k < |s.threadEpochs| && Active(s.threadEpochs[k]) ==> Observed(s.threadEpochs[k]) == Low7(value)
    ensures r.1 ==> r.0 == s.(globalEpoch := s.globalEpoch + 1)
    ensures !r.1 ==> r.0 == s
  {
    if AllObserved(s.threadEpochs, value) then (s.(globalEpoch := s.globalEpoch + 1), true)
    else (s, false)
  }

  /** The bucket freed when the epoch advances from `g`: two epochs ago,
      `g.wrapping_sub(2) % 4`. */
  function TwoAgo(g: bv8): (b: nat)
    ensures b < BUCKETS
    ensures b == ((g as int) - 2) % 4
  {
    ((g - 2) % 4) as nat
  }

  /** The reclamation step of `mark_use`: the bucket two epochs back moves,
      in order, to the reclaimed list and is emptied; the other buckets are
      untouched. */
  function Reclaim(l: Local, g: bv8): (lNew: Local)
    requires LocalWF(l)
    ensures LocalWF(lNew) && lNew.threadId == l.threadId
    ensures lNew.garbage == l.garbage + l.limbo[TwoAgo(g)]
    ensures lNew.limbo[TwoAgo(g)] == []
    ensures forall b :: 0 <= b < BUCKETS && b != TwoAgo(g) ==> lNew.limbo[b] == l.limbo[b]
  {
    var b := TwoAgo(g);
    l.(garbage := l.garbage + l.limbo[b], limbo := l.limbo[b := []])
  }

  /** `mark_use` AS WRITTEN: publish `(g << 1) | 1` in the own slot, where a
      slot number of 32 or more panics; then, if every active slot records
      `g`, the epoch advances and the bucket two epochs back is reclaimed. */
  function MarkUseAsWritten(s: Shared, l: Local): (r: Outcome<(Shared, Local)>)
    requires SharedWF(s) && LocalWF(l)
    ensures r.Panic? <==> l.threadId >= MAX_THREADS
    ensures r.Return? ==> var (s', l') := r.value;
              var g := s.globalEpoch;
              var slots := s.threadEpochs[l.threadId := Encode(g)];
              && SharedWF(s') && LocalWF(l')
              && s'.threadEpochs == slots
              && var advanced := forall k :: 0 <= k < |slots| && Active(slots[k]) ==> Observed(slots[k]) == g;
              && (advanced ==> s' == s.(threadEpochs := slots, globalEpoch := g + 1) && l' == Reclaim(l, g))
              && (!advanced ==> s' == s.(threadEpochs := slots) && l' == l)
  {
    if l.threadId >= |s.threadEpochs| then Panic
    else
      var g := s.globalEpoch;
      var s1 := s.(threadEpochs := s.threadEpochs[l.threadId := Encode(g)]);
      var checked := HaveAllObservedAsWritten(s1, g);
      Return((checked.0, if checked.1 then Reclaim(l, g) else l))
  }

  /** `mark_use` with the scan comparing the seven recorded bits. */
  function MarkUse(s: Shared, l: Local): (r: Outcome<(Shared, Local)>)
    requires SharedWF(s) && LocalWF(l)
    ensures r.Panic? <==> l.threadId >= MAX_THREADS
    ensures r.Return? ==> var (s', l') := r.value;
              var g := s.globalEpoch;
              var slots := s.threadEpochs[l.threadId := Encode(g)];
              && SharedWF(s') && LocalWF(l')
              && s'.threadEpochs == slots
              && var advanced := forall k :: 0 <= k < |slots| && Active(slots[k]) ==> Observed(slots[k]) == Low7(g);
              && (advanced ==> s' == s.(threadEpochs := slots, globalEpoch := g + 1) && l' == Reclaim(l, g))
              && (!advanced ==> s' == s.(threadEpochs := slots) && l' == l)
  {
    if l.threadId >= |s.threadEpochs| then Panic
    else
      var g := s.globalEpoch;
      var s1 := s.(threadEpochs := s.threadEpochs[l.threadId := Encode(g)]);
      var checked := HaveAllObserved(s1, g);
      Return((checked.0, if checked.1 then Reclaim(l, g) else l))
  }

  /** `defer` AS WRITTEN: the own slot is decremented, which on an active
      slot clears the active bit and keeps the recorded epoch; the pointer
      joins the bucket numbered by that epoch, unreduced, so a recorded
      epoch of 4 or more indexes past the four buckets and panics. */
  function DeferAsWritten(s: Shared, l: Local, p: Ptr): (r: Outcome<(Shared, Local)>)
    requires SharedWF(s) && LocalWF(l)
    ensures r.Panic? <==> l.threadId >= MAX_THREADS || Observed(s.threadEpochs[l.threadId]) as int >= BUCKETS
    ensures r.Return? ==> var (s', l') := r.value;
              var e := s.threadEpochs[l.threadId];
              var b := Observed(e) as int;
              && s' == s.(threadEpochs := s.threadEpochs[l.threadId := e - 1])
              && (Active(e) ==> !Active(e - 1) && Observed(e - 1) == Observed(e))
              && l' == l.(limbo := l.limbo[b := l.limbo[b] + [p]])
  {
    if l.threadId >= |s.threadEpochs| then Panic
    else
      var e := s.threadEpochs[l.threadId];
      var s' := s.(threadEpochs := s.threadEpochs[l.threadId := e - 1]);
      var b := (e >> 1) as int;
      if b >= |l.limbo| then Panic
      else Return((s', l.(limbo := l.limbo[b := l.limbo[b] + [p]])))
  }

  /** `defer` with the bucket index reduced modulo 4: it panics only on a
      slot number past the table. */
  function Defer(s: Shared, l: Local, p: Ptr): (r: Outcome<(Shared, Local)>)
    requires SharedWF(s) && LocalWF(l)
    ensures r.Panic? <==> l.threadId >= MAX_THREADS
    ensures r.Return? ==> var (s', l') := r.value;
              var e := s.threadEpochs[l.threadId];
              var b := (Observed(e) % 4) as int;
              && s' == s.(threadEpochs := s.threadEpochs[l.threadId := e - 1])
              && (Active(e) ==> !Active(e - 1) && Observed(e - 1) == Observed(e))
              && LocalWF(l') && l' == l.(limbo := l.limbo[b := l.limbo[b] + [p]])
  {
    if l.threadId >= |s.threadEpochs| then Panic
    else
      var e := s.threadEpochs[l.threadId];
      var s' := s.(threadEpochs := s.threadEpochs[l.threadId := e - 1]);
      var b := ((e >> 1) % 4) as int;
      Return((s', l.(limbo := l.limbo[b := l.limbo[b] + [p]])))
  }

  /** No slot but `tid`'s is active: a single participant. */
  predicate Alone(s: Shared, tid: nat) {
    forall k :: 0 <= k < |s.threadEpochs| && k != tid ==> !Active(s.threadEpochs[k])
  }

  /** With the seven-bit comparison a lone participant advances the epoch
      on every `mark_use`, whatever the epoch. */
  lemma SingleParticipantAdvances(s: Shared, l: Local)
    requires SharedWF(s) && LocalWF(l) && l.threadId < MAX_THREADS && Alone(s, l.threadId)
    ensures MarkUse(s, l).Return?
    ensures MarkUse(s, l).value.0.globalEpoch == s.globalEpoch + 1
  {
    var slots := s.threadEpochs[l.threadId := Encode(s.globalEpoch)];
    EncodeFacts(s.globalEpoch);
    assert forall k :: 0 <= k < |slots| && Active(slots[k]) ==> k == l.threadId;
  }

  /** As written, a lone participant advances the epoch exactly while it is
      below 128; at 128 its own slot records 0 and the epoch stops. */
  lemma SingleParticipantAsWritten(s: Shared, l: Local)
    requires SharedWF(s) && LocalWF(l) && l.threadId < MAX_THREADS && Alone(s, l.threadId)
    ensures MarkUseAsWritten(s, l).Return?
    ensures MarkUseAsWritten(s, l).value.0.globalEpoch == if s.globalEpoch < 128 then s.globalEpoch + 1 else s.globalEpoch
  {
    var slots := s.threadEpochs[l.threadId := Encode(s.globalEpoch)];
    EncodeFacts(s.globalEpoch);
    assert forall k :: 0 <= k < |slots| && Active(slots[k]) ==> k == l.threadId;
    assert Active(slots[l.threadId]);
  }

  /** As written, once the epoch reaches 128 no `mark_use` by any
      participant moves it again, whatever the other slots hold: the caller's
      own slot is active and records the epoch without bit 7. */
  lemma EpochStallsAsWritten(s: Shared, l: Local)
    requires SharedWF(s) && LocalWF(l) && l.threadId < MAX_THREADS && s.globalEpoch >= 128
    ensures MarkUseAsWritten(s, l).Return?
    ensures MarkUseAsWritten(s, l).value.0.globalEpoch == s.globalEpoch
    ensures MarkUseAsWritten(s, l).value.1 == l
  {
    var slots := s.threadEpochs[l.threadId := Encode(s.globalEpoch)];
    EncodeFacts(s.globalEpoch);
    assert Active(slots[l.threadId]) && Observed(slots[l.threadId]) != s.globalEpoch;
  }

  /** As written, a `defer` right after a `mark_use` at epoch `g` panics
      exactly when `g mod 128` is 4 or more: the recorded epoch is used as
      the bucket index without reduction. */
  lemma DeferPanicsAsWritten(s: Shared, l: Local, p: Ptr)
    requires SharedWF(s) && LocalWF(l) && l.threadId < MAX_THREADS
    ensures var (s1, l1) := MarkUseAsWritten(s, l).value;
            DeferAsWritten(s1, l1, p).Panic? <==> Low7(s.globalEpoch) as int >= BUCKETS
  {
    EncodeFacts(s.globalEpoch);
  }

  /** With the index reduced, a `defer` after a `mark_use` at epoch `g`
      never panics, puts the pointer in bucket `g mod 4` and leaves the own
      slot inactive. */
  lemma DeferAfterMarkUse(s: Shared, l: Local, p: Ptr)
    requires SharedWF(s) && LocalWF(l) && l.threadId < MAX_THREADS
    ensures var (s1, l1) := MarkUse(s, l).value;
            && Defer(s1, l1, p).Return?
            && var (s2, l2) := Defer(s1, l1, p).value;
            && !Active(s2.threadEpochs[l.threadId])
            && l2.limbo[(s.globalEpoch % 4) as int] == l1.limbo[(s.globalEpoch % 4) as int] + [p]
  {
    EncodeFacts(s.globalEpoch);
    var g := s.globalEpoch;
    assert Low7(g) % 4 == g % 4;
  }

  /** One `mark_use` touches no bucket but the one two epochs behind the
      epoch it starts from, and moves the epoch by at most one. */
  lemma MarkUseKeeps(s: Shared, l: Local, b: nat)
    requires SharedWF(s) && LocalWF(l) && l.threadId < MAX_THREADS
    requires b < BUCKETS && b != TwoAgo(s.globalEpoch)
    ensures var (s1, l1) := MarkUse(s, l).value;
            && SharedWF(s1) && LocalWF(l1) && l1.threadId == l.threadId
            && l1.limbo[b] == l.limbo[b]
            && (s1.globalEpoch == s.globalEpoch || s1.globalEpoch == s.globalEpoch + 1)
  {
  }

  /** The same frame for `mark_use` as written: whether or not its
      comparison is the right one, it reclaims at most the bucket two epochs
      behind and moves the epoch by at most one. */
  lemma MarkUseKeepsAsWritten(s: Shared, l: Local, b: nat)
    requires SharedWF(s) && LocalWF(l) && l.threadId < MAX_THREADS
    requires b < BUCKETS && b != TwoAgo(s.globalEpoch)
    ensures var (s1, l1) := MarkUseAsWritten(s, l).value;
            && SharedWF(s1) && LocalWF(l1) && l1.threadId == l.threadId
            && l1.limbo[b] == l.limbo[b]
            && (s1.globalEpoch == s.globalEpoch || s1.globalEpoch == s.globalEpoch + 1)
  {
  }

  /** Neither the advance from `g` nor the one from `g + 1` reclaims the
      bucket of `g`. */
  lemma BucketOfEpochSpared(g: bv8)
    ensures TwoAgo(g) != (g % 4) as nat
    ensures TwoAgo(g + 1) != (g % 4) as nat
  {
  }

  /** A grace period of two advances: a pointer in the bucket of the
      current epoch survives the next two `mark_use` calls of its owner,
      since each reclaims only the bucket two epochs behind the epoch it
      starts from, and the epoch moves by at most one per call. */
  lemma GracePeriod(s: Shared, l: Local, p: Ptr)
    requires SharedWF(s) && LocalWF(l) && l.threadId < MAX_THREADS
    requires p in l.limbo[(s.globalEpoch % 4) as int]
    ensures var (s1, l1) := MarkUse(s, l).value;
            var (s2, l2) := MarkUse(s1, l1).value;
            p in l2.limbo[(s.globalEpoch % 4) as int]
  {
    var g := s.globalEpoch;
    var b := (g % 4) as nat;
    BucketOfEpochSpared(g);
    MarkUseKeeps(s, l, b);
    var (s1, l1) := MarkUse(s, l).value;
    MarkUseKeeps(s1, l1, b);
  }

  /** The grace period holds for `mark_use` as written too: a pointer in the
      bucket of the current epoch survives the owner's next two calls. */
  lemma GracePeriodAsWritten(s: Shared, l: Local, p: Ptr)
    requires SharedWF(s) && LocalWF(l) && l.threadId < MAX_THREADS
    requires p in l.limbo[(s.globalEpoch % 4) as int]
    ensures var (s1, l1) := MarkUseAsWritten(s, l).value;
            var (s2, l2) := MarkUseAsWritten(s1, l1).value;
            p in l2.limbo[(s.globalEpoch % 4) as int]
  {
    var g := s.globalEpoch;
    var b := (g % 4) as nat;
    BucketOfEpochSpared(g);
    MarkUseKeepsAsWritten(s, l, b);
    var (s1, l1) := MarkUseAsWritten(s, l).value;
    MarkUseKeepsAsWritten(s1, l1, b);
  }
}

=== FILE: stacc_lockfree_hp.dfy ===
/** The lock-free stack with hazard pointers. Nodes are abstract addresses into
    a heap; each atomic operation is one step and every compare-and-swap
    succeeds. A handle (`LockFreeStacc`) owns a retired list and a cache of
    reusable boxes; the shared part holds `top`, the hazard-pointer table, the
    list of boxes handed over by departed handles, the handle counter and the
    advisory length. */
module HazardStack {
  import opened Wrappers
  import opened Usize
  import opened Sequences
  import opened LinkedList

  /** Size of the hazard-pointer table. */
  const MAX_THREADS: nat := 32
  /** Retired-list length that triggers a scan. */
  const R: nat := 42


  /** `Node<T>`: a payload and the successor address. `pop` moves the payload
      out with `ptr::read`, which leaves the bits in the box. */
  datatype Node<T> = Node(data: T, next: Option<NodeId>)

  /** `Shared<T>`, together with the allocator's view of memory: `heap` maps
      every allocated box to its contents and `unused` is an address never
      handed out before. */
  datatype Shared<T> = Shared(
    top: Option<NodeId>,
    hazards: seq<Option<NodeId>>,
    stillHazard: seq<NodeId>,
    counter: nat,
    len: nat,
    heap: map<NodeId, Node<T>>,
    unused: NodeId)

  /** `LockFreeStacc<T>`: one participant's handle. */
  datatype Handle = Handle(retired: seq<NodeId>, threadNumber: nat, cache: seq<NodeId>)

  function Links<T>(heap: map<NodeId, Node<T>>): LinkMap {
    map id | id in heap :: heap[id].next
  }

  lemma LinksUpdate<T>(heap: map<NodeId, Node<T>>, id: NodeId, n: Node<T>)
    ensures Links(heap[id := n]) == Links(heap)[id := n.next]
  {
  }

  lemma LinksRemove<T>(heap: map<NodeId, Node<T>>, gone: set<NodeId>)
    ensures Links(heap - gone) == Links(heap) - gone
  {
  }

  /** The hazard table has its 32 slots, `top` heads a null-terminated list of
      allocated boxes, and `unused` lies above every allocated address. */
  predicate StackWF<T>(s: Shared<T>) {
    && |s.hazards| == MAX_THREADS
    && Walk(Links(s.heap), s.top).Some?
    && forall id :: id in s.heap ==> id < s.unused
  }

  /** The boxes on the stack, top first. */
  function Chain<T>(s: Shared<T>): (ids: seq<NodeId>)
    requires StackWF(s)
    ensures forall k :: 0 <= k < |ids| ==> ids[k] in s.heap
    ensures Distinct(ids)
    ensures s.top.None? <==> ids == []
    ensures s.top.Some? ==> ids[0] == s.top.value
  {
    var ids := Walk(Links(s.heap), s.top).value;
    WalkShape(Links(s.heap), s.top, ids);
    ids
  }

  /** The payloads on the stack, top first. */
  function Values<T>(heap: map<NodeId, Node<T>>, ids: seq<NodeId>): (vs: seq<T>)
    requires forall k :: 0 <= k < |ids| ==> ids[k] in heap
    ensures |vs| == |ids|
  {
    seq(|ids|, k requires 0 <= k < |ids| => heap[ids[k]].data)
  }

  /** The payloads of a list are its first box's payload followed by those
      of the rest. */
  lemma ValuesTail<T>(heap: map<NodeId, Node<T>>, ids: seq<NodeId>, tail: seq<NodeId>)
    requires forall k :: 0 <= k < |ids| ==> ids[k] in heap
    requires ids != [] && tail == ids[1..]
    ensures Values(heap, ids) == [heap[ids[0]].data] + Values(heap, tail)
  {
  }

  /** Every cached box is allocated and not on the stack. */
  predicate CacheOffStack<T>(s: Shared<T>, h: Handle)
    requires StackWF(s)
  {
    forall k :: 0 <= k < |h.cache| ==> h.cache[k] in s.heap && h.cache[k] !in Chain(s)
  }

  /** `Shared::new` followed by `LockFreeStacc::new`'s `counter.fetch_add(1)`:
      the first handle gets number 0. */
  function New<T>(): (r: (Shared<T>, Handle))
    ensures StackWF(r.0) && Chain(r.0) == [] && r.0.heap == map[]
    ensures r.1.threadNumber == 0 && r.0.counter == 1
    ensures r.1.retired == [] && r.1.cache == []
  {
    var shared := Shared(None, seq(MAX_THREADS, _ => None), [], 0, 0, map[], 0);
    var thread_number := shared.counter;
    (shared.(counter := shared.counter + 1), Handle([], thread_number, []))
  }

  /** `Box::new`: a box at a never-used address. */
  function Alloc<T>(s: Shared<T>, n: Node<T>): (r: (Shared<T>, NodeId))
    ensures r.1 == s.unused && r.0.heap == s.heap[s.unused := n] && r.0.unused == s.unused + 1
  {
    (s.(heap := s.heap[s.unused := n], unused := s.unused + 1), s.unused)
  }

  /** `get_node` AS WRITTEN: on a cache hit the cached box comes back as it is,
      and the freshly built `node` (payload and successor) is thrown away. */
  function GetNodeAsWritten<T>(s: Shared<T>, h: Handle, node: Node<T>): (r: (Shared<T>, Handle, NodeId))
    ensures |h.cache| > 0 ==> r.0 == s && r.2 == h.cache[|h.cache| - 1]
    ensures |h.cache| > 0 ==> r.1 == h.(cache := h.cache[..|h.cache| - 1])
    ensures |h.cache| == 0 ==> r.0.heap == s.heap[s.unused := node] && r.2 == s.unused && r.1 == h
  {
    if |h.cache| == 0 then
      var (s', id) := Alloc(s, node);
      (s', h, id)
    else
      (s, h.(cache := h.cache[..|h.cache| - 1]), h.cache[|h.cache| - 1])
  }

  /** `get_node` as evidently intended: a cached box is reused, but filled with
      the new node, so the box always holds `node` afterwards. */
  function GetNode<T>(s: Shared<T>, h: Handle, node: Node<T>): (r: (Shared<T>, Handle, NodeId))
    ensures r.0.heap == s.heap[r.2 := node]
    ensures |h.cache| > 0 ==> r.2 == h.cache[|h.cache| - 1] && r.0.unused == s.unused
    ensures |h.cache| > 0 ==> r.1 == h.(cache := h.cache[..|h.cache| - 1])
    ensures |h.cache| == 0 ==> r.2 == s.unused && r.0.unused == s.unused + 1 && r.1 == h
    ensures r.0.(heap := s.heap, unused := s.unused) == s
  {
    if |h.cache| == 0 then
      var (s', id) := Alloc(s, node);
      (s', h, id)
    else
      var id := h.cache[|h.cache| - 1];
      (s.(heap := s.heap[id := node]), h.(cache := h.cache[..|h.cache| - 1]), id)
  }

  /** `prepare_for_reuse`: a box goes to the end of the cache. */
  function PrepareForReuse(h: Handle, id: NodeId): (hNew: Handle)
    ensures hNew.cache == h.cache + [id] && hNew.retired == h.retired && hNew.threadNumber == h.threadNumber
  {
    h.(cache := h.cache + [id])
  }

  /** The non-null addresses published in the hazard table. */
  function HazardSet<T>(s: Shared<T>): set<NodeId> {
    set k | 0 <= k < |s.hazards| && s.hazards[k].Some? :: s.hazards[k].value
  }

  /** `drain_filter` with "absent from the hazard set" as the filter: splits
      `xs`, order kept, into the hazardous pointers and the others. */
  function SplitHazardous(xs: seq<NodeId>, hz: set<NodeId>): (r: (seq<NodeId>, seq<NodeId>))
    ensures multiset(xs) == multiset(r.0) + multiset(r.1)
    ensures forall k :: 0 <= k < |r.0| ==> r.0[k] in hz
    ensures forall k :: 0 <= k < |r.1| ==> r.1[k] !in hz
    decreases |xs|
  {
    if xs == [] then ([], [])
    else
      var (kept, moved) := SplitHazardous(xs[1..], hz);
      assert xs == [xs[0]] + xs[1..];
      if xs[0] in hz then ([xs[0]] + kept, moved) else (kept, [xs[0]] + moved)
  }

  /** A handle's own boxes: retired and cached. */
  function Ids(h: Handle): seq<NodeId> {
    h.retired + h.cache
  }

  /** `scan`: every retired pointer absent from the hazard table moves, in
      order, to the end of the cache; the hazardous ones stay retired. Nothing
      is lost or duplicated. */
  function Scan<T>(s: Shared<T>, h: Handle): (hNew: Handle)
    ensures hNew.threadNumber == h.threadNumber
    ensures forall k :: 0 <= k < |hNew.retired| ==> hNew.retired[k] in HazardSet(s)
    ensures |h.cache| <= |hNew.cache| && hNew.cache[..|h.cache|] == h.cache
    ensures forall k :: |h.cache| <= k < |hNew.cache| ==> hNew.cache[k] !in HazardSet(s)
    ensures multiset(hNew.retired) + multiset(hNew.cache[|h.cache|..]) == multiset(h.retired)
    ensures multiset(Ids(hNew)) == multiset(Ids(h))
  {
    var v := HazardSet(s);
    var (kept, moved) := SplitHazardous(h.retired, v);
    var hNew := h.(retired := kept, cache := h.cache + moved);
    assert hNew.cache[|h.cache|..] == moved;
    hNew
  }

  /** `retire_node`: the pointer joins the retired list, and a scan runs once
      the list reaches `R`; afterwards the list is short or entirely
      hazardous. Below `R` nothing else happens: the cache is untouched. */
  function RetireNode<T>(s: Shared<T>, h: Handle, id: NodeId): (hNew: Handle)
    ensures |h.retired| + 1 < R ==> hNew == h.(retired := h.retired + [id])
    ensures |h.retired| + 1 >= R ==> hNew == Scan(s, h.(retired := h.retired + [id]))
    ensures hNew.threadNumber == h.threadNumber
    ensures |hNew.retired| < R || forall k :: 0 <= k < |hNew.retired| ==> hNew.retired[k] in HazardSet(s)
    ensures multiset(Ids(hNew)) == multiset(Ids(h)) + multiset{id}
    ensures |h.cache| <= |hNew.cache| && hNew.cache[..|h.cache|] == h.cache
  {
    var h1 := h.(retired := h.retired + [id]);
    assert multiset(Ids(h1)) == multiset(Ids(h)) + multiset{id};
    if |h1.retired| >= R then Scan(s, h1) else h1
  }

  /** `LockFreeStacc::push`: the new node's successor is the loaded `top`, and
      the compare-and-swap installs it as `top`. The node is the top of the
      stack afterwards, with `data` as payload, above the old stack, and every
      box already on the stack is untouched. */
  function Push<T>(s: Shared<T>, h: Handle, data: T): (r: (Shared<T>, Handle))
    requires StackWF(s) && CacheOffStack(s, h)
    ensures StackWF(r.0) && r.0.top.Some?
    ensures Chain(r.0) == [r.0.top.value] + Chain(s)
    ensures r.0.heap[r.0.top.value] == Node(data, s.top)
    ensures Values(r.0.heap, Chain(r.0)) == [data] + Values(s.heap, Chain(s))
    ensures r.0.len == WrappingAdd(s.len, 1)
    ensures |h.cache| > 0 ==> r.0.top.value == h.cache[|h.cache| - 1] && r.0.heap.Keys == s.heap.Keys
    ensures |h.cache| > 0 ==> r.1 == h.(cache := h.cache[..|h.cache| - 1])
    ensures |h.cache| == 0 ==> r.0.top == Some(s.unused) && r.1 == h
    ensures |h.cache| == 0 ==> r.0.heap.Keys == s.heap.Keys + {s.unused} && r.0.unused == s.unused + 1
    ensures r.0.(top := s.top, len := s.len, heap := s.heap, unused := s.unused) == s
  {
    var top := s.top;
    var node := Node(data, top);
    var (s1, h1, id) := GetNode(s, h, node);
    var s2 := s1.(top := Some(id), len := WrappingAdd(s1.len, 1));
    assert id !in Chain(s) by {
      if |h.cache| == 0 {
        assert id !in s.heap;
      } else {
        assert id == h.cache[|h.cache| - 1];
      }
    }
    LinksUpdate(s.heap, id, node);
    WalkPush(Links(s.heap), top, Chain(s), id);
    assert Values(s2.heap, Chain(s2)) == [data] + Values(s.heap, Chain(s));
    (s2, h1)
  }

  /** `LockFreeStacc::push` AS WRITTEN, through `get_node` as written: on a
      cache hit the reused box becomes `top` with its old payload and old
      successor, and `data` is not installed anywhere. */
  function PushAsWritten<T>(s: Shared<T>, h: Handle, data: T): (r: (Shared<T>, Handle))
    ensures r.0.len == WrappingAdd(s.len, 1)
    ensures |h.cache| > 0 ==> r.0.top == Some(h.cache[|h.cache| - 1]) && r.0.heap == s.heap
    ensures |h.cache| == 0 ==> r.0.top == Some(s.unused) && r.0.heap == s.heap[s.unused := Node(data, s.top)]
  {
    var top := s.top;
    var node := Node(data, top);
    var (s1, h1, id) := GetNodeAsWritten(s, h, node);
    (s1.(top := Some(id), len := WrappingAdd(s1.len, 1)), h1)
  }

  /** `LockFreeStacc::pop`. The handle's number indexes the 32-slot hazard
      table, so a number of 32 or more panics. On an empty stack the slot is
      left null and nothing else changes. Otherwise the top's payload comes
      back, `top` moves to its successor, the slot is null again, the length
      drops by one and the box is retired. */
  function Pop<T>(s: Shared<T>, h: Handle): (r: Outcome<(Shared<T>, Handle, Option<T>)>)
    requires StackWF(s)
    ensures r.Panic? <==> h.threadNumber >= MAX_THREADS
    ensures r.Return? && s.top.None? ==> r.value == (s.(hazards := s.hazards[h.threadNumber := None]), h, None)
    ensures r.Return? && s.top.Some? ==>
              var (s', h', item) := r.value;
              && StackWF(s')
              && item == Some(s.heap[s.top.value].data)
              && Chain(s') == Chain(s)[1..]
              && s' == s.(top := s'.top, hazards := s.hazards[h.threadNumber := None], len := WrappingSub(s.len, 1))
              && h'.threadNumber == h.threadNumber
              && (|h.retired| + 1 < R ==> h' == h.(retired := h.retired + [s.top.value]))
              && multiset(Ids(h')) == multiset(Ids(h)) + multiset{s.top.value}
              && |h.cache| <= |h'.cache| && h'.cache[..|h.cache|] == h.cache
              && (|h'.retired| < R || forall k :: 0 <= k < |h'.retired| ==> h'.retired[k] in HazardSet(s'))
  {
    var thread_number := h.threadNumber;
    if thread_number >= |s.hazards| then Panic
    else
      var top := s.top;
      var s1 := s.(hazards := s.hazards[thread_number := top]);
      if top.None? then Return((s1, h, None))
      else
        // The re-read of `top` sees the same pointer, so there is no retry.
        var next := s1.heap[top.value].next;
        var s2 := s1.(top := next);
        var s3 := s2.(hazards := s2.hazards[thread_number := None], len := WrappingSub(s2.len, 1));
        var data := s3.heap[top.value].data;
        WalkPop(Links(s.heap), top.value, Chain(s));
        var h' := RetireNode(s3, h, top.value);
        assert |h.retired| + 1 < R ==> h' == h.(retired := h.retired + [top.value]);
        Return((s3, h', Some(data)))
  }

  /** `LockFreeStacc::len`: the advisory counter. */
  function Len<T>(s: Shared<T>): nat {
    s.len
  }

  /** `Clone for LockFreeStacc` AS WRITTEN: the handle takes the counter's
      previous value as its number, with no bound check. */
  function CloneAsWritten<T>(s: Shared<T>): (r: (Shared<T>, Handle))
    ensures r.1.threadNumber == s.counter
    ensures r.0 == s.(counter := s.counter + 1)
    ensures r.1.retired == [] && r.1.cache == []
  {
    var thread_number := s.counter;
    (s.(counter := s.counter + 1), Handle([], thread_number, []))
  }

  /** `Clone for LockFreeStacc` with the participant bound enforced at clone
      time: a clone past the 32 hazard slots panics there instead of in a
      later `pop`. */
  function Clone<T>(s: Shared<T>): (r: Outcome<(Shared<T>, Handle)>)
    ensures r.Panic? <==> s.counter >= MAX_THREADS
    ensures r.Return? ==> r.value.1.threadNumber == s.counter < MAX_THREADS
    ensures r.Return? ==> r.value.0 == s.(counter := s.counter + 1)
    ensures r.Return? ==> r.value.1.retired == [] && r.value.1.cache == []
  {
    if s.counter >= MAX_THREADS then Panic
    else
      var thread_number := s.counter;
      Return((s.(counter := s.counter + 1), Handle([], thread_number, [])))
  }

  /** `Drop for LockFreeStacc`: the handle nulls its hazard slot, scans, and
      hands its remaining retired pointers to the shared list; then its cached
      boxes are freed with it. The freed boxes and the handed-over pointers
      are exactly the handle's retired and cached boxes: the old cache and
      the non-hazardous retired pointers are freed, and every retired pointer
      that is still a hazard is handed over. */
  function DropHandle<T>(s: Shared<T>, h: Handle): (r: Outcome<(Shared<T>, seq<NodeId>)>)
    ensures r.Panic? <==> h.threadNumber >= |s.hazards|
    ensures r.Return? ==>
              var (s', freed) := r.value;
              && |s.stillHazard| <= |s'.stillHazard| && s'.stillHazard[..|s.stillHazard|] == s.stillHazard
              && multiset(s'.stillHazard[|s.stillHazard|..]) + multiset(freed) == multiset(Ids(h))
              && (forall k :: |s.stillHazard| <= k < |s'.stillHazard| ==> s'.stillHazard[k] in HazardSet(s'))
              && |h.cache| <= |freed| && freed[..|h.cache|] == h.cache
              && (forall k :: |h.cache| <= k < |freed| ==> freed[k] !in HazardSet(s'))
              && (forall x :: x in h.retired && x in HazardSet(s') ==> x in s'.stillHazard[|s.stillHazard|..])
              && s' == s.(hazards := s.hazards[h.threadNumber := None], stillHazard := s'.stillHazard, heap := s.heap - Elems(freed))
  {
    var thread_number := h.threadNumber;
    if thread_number >= |s.hazards| then Panic
    else
      var s1 := s.(hazards := s.hazards[thread_number := None]);
      var h1 := Scan(s1, h);
      var s2 := s1.(stillHazard := s1.stillHazard + h1.retired);
      // The handle's fields are dropped: `retired_pointers` was emptied by
      // `append`, and every box in `cached_allocations` is freed.
      var freed := h1.cache;
      assert s2.stillHazard[|s.stillHazard|..] == h1.retired;
      assert forall x :: x in h.retired && x in HazardSet(s1) ==> x in h1.retired by {
        forall x | x in h.retired && x in HazardSet(s1)
          ensures x in h1.retired
        {
          assert x in multiset(h1.retired) + multiset(h1.cache[|h.cache|..]);
          assert x !in h1.cache[|h.cache|..];
        }
      }
      Return((s2.(heap := s2.heap - Elems(freed)), freed))
  }

  /** `Drop for Shared`: frees every pointer handed over by departed handles,
      then walks from `top` freeing every box on the stack. */
  method DropShared<T>(s: Shared<T>) returns (freed: seq<NodeId>)
    requires StackWF(s)
    ensures freed == s.stillHazard + Chain(s)
  {
    freed := [];
    for i := 0 to |s.stillHazard|
      invariant freed == s.stillHazard[..i]
    {
      freed := freed + [s.stillHazard[i]];
    }
    var top := s.top;
    ghost var rest := Chain(s);
    while top.Some?
      invariant Walk(Links(s.heap), top) == Some(rest)
      invariant freed + rest == s.stillHazard + Chain(s)
      decreases |rest|
    {
      WalkPop(Links(s.heap), top.value, rest);
      var next := s.heap[top.value].next;
      freed := freed + [top.value];
      top := next;
      rest := rest[1..];
    }
  }

  /** The whole structure between operations: the shared part and the live
      handles, each handle used by one thread at a time. */
  datatype System<T> = System(shared: Shared<T>, handles: seq<Handle>)

  /** Every box owned by some handle, counted with multiplicity. */
  function HandleBag(hs: seq<Handle>): multiset<NodeId> {
    if hs == [] then multiset{} else multiset(Ids(hs[0])) + HandleBag(hs[1..])
  }

  /** Every box the structure is responsible for: on the stack, handed over by
      departed handles, or retired or cached by a live handle. */
  function Owned<T>(sys: System<T>): multiset<NodeId>
    requires StackWF(sys.shared)
  {
    multiset(Chain(sys.shared)) + multiset(sys.shared.stillHazard) + HandleBag(sys.handles)
  }

  /** The sequential invariant: every allocated box is owned in exactly one
      place, no hazard pointer is published between operations, handle
      numbers are distinct and inside the hazard table, and the advisory
      length is the stack's length. */
  predicate Inv<T>(sys: System<T>) {
    && StackWF(sys.shared)
    && HazardsClear(sys.shared.hazards)
    && sys.shared.counter <= MAX_THREADS
    && Numbered(sys.handles, sys.shared.counter)
    && Owned(sys) == multiset(sys.shared.heap.Keys)
    && sys.shared.len == |Chain(sys.shared)| % USIZE
  }

  predicate HazardsClear(hazards: seq<Option<NodeId>>) {
    forall k :: 0 <= k < |hazards| ==> hazards[k] == None
  }

  /** Clearing one slot of a clear table keeps it clear. */
  lemma HazardsClearSet(hazards: seq<Option<NodeId>>, k: nat)
    requires HazardsClear(hazards) && k < |hazards|
    ensures HazardsClear(hazards[k := None])
  {
  }

  /** Every live handle holds its own hazard slot, below the counter. */
  predicate Numbered(hs: seq<Handle>, counter: nat) {
    && (forall i :: 0 <= i < |hs| ==> hs[i].threadNumber < counter)
    && (forall i, j :: 0 <= i < j < |hs| ==> hs[i].threadNumber != hs[j].threadNumber)
  }

  lemma NumberedUpdate(hs: seq<Handle>, counter: nat, i: nat, h: Handle)
    requires Numbered(hs, counter) && i < |hs| && h.threadNumber == hs[i].threadNumber
    ensures Numbered(hs[i := h], counter)
  {
    var hs' := hs[i := h];
    forall a, b | 0 <= a < b < |hs'|
      ensures hs'[a].threadNumber != hs'[b].threadNumber
    {
      assert hs'[a].threadNumber == hs[a].threadNumber;
      assert hs'[b].threadNumber == hs[b].threadNumber;
    }
  }

  lemma NumberedRemove(hs: seq<Handle>, counter: nat, i: nat)
    requires Numbered(hs, counter) && i < |hs|
    ensures Numbered(hs[..i] + hs[i + 1..], counter)
  {
    var rest := hs[..i] + hs[i + 1..];
    assert forall j :: 0 <= j < |rest| ==> rest[j] == hs[if j < i then j else j + 1];
  }

  lemma NumberedAppend(hs: seq<Handle>, counter: nat, h: Handle)
    requires Numbered(hs, counter) && h.threadNumber == counter
    ensures Numbered(hs + [h], counter + 1)
  {
  }

  /** The payloads on the stack, top first. */
  function Contents<T>(sys: System<T>): seq<T>
    requires StackWF(sys.shared)
  {
    Values(sys.shared.heap, Chain(sys.shared))
  }

  lemma HandleBagUpdate(hs: seq<Handle>, i: nat, h: Handle)
    requires i < |hs|
    ensures HandleBag(hs[i := h]) + multiset(Ids(hs[i])) == HandleBag(hs) + multiset(Ids(h))
  {
    var pre, post := hs[..i], hs[i + 1..];
    HandleBagSplit(hs, i);
    HandleBagSplit(hs[i := h], i);
    assert hs[i := h][..i] == pre && hs[i := h][i + 1..] == post;
    BagExchange(HandleBag(pre), multiset(Ids(h)), multiset(Ids(hs[i])), HandleBag(post));
  }

  /** A handle that gave up the boxes `extra`. */
  lemma HandleBagShrink(hs: seq<Handle>, i: nat, h: Handle, extra: multiset<NodeId>)
    requires i < |hs| && multiset(Ids(hs[i])) == multiset(Ids(h)) + extra
    ensures HandleBag(hs[i := h]) + extra == HandleBag(hs)
  {
    HandleBagUpdate(hs, i, h);
    forall z
      ensures (HandleBag(hs[i := h]) + extra)[z] == HandleBag(hs)[z]
    {
      assert (HandleBag(hs[i := h]) + multiset(Ids(hs[i])))[z] == (HandleBag(hs) + multiset(Ids(h)))[z];
    }
  }

  /** A handle that took on the boxes `extra`. */
  lemma HandleBagGrow(hs: seq<Handle>, i: nat, h: Handle, extra: multiset<NodeId>)
    requires i < |hs| && multiset(Ids(h)) == multiset(Ids(hs[i])) + extra
    ensures HandleBag(hs[i := h]) == HandleBag(hs) + extra
  {
    HandleBagUpdate(hs, i, h);
    forall z
      ensures HandleBag(hs[i := h])[z] == (HandleBag(hs) + extra)[z]
    {
      assert (HandleBag(hs[i := h]) + multiset(Ids(hs[i])))[z] == (HandleBag(hs) + multiset(Ids(h)))[z];
    }
  }

  lemma {:induction false} HandleBagConcat(a: seq<Handle>, b: seq<Handle>)
    ensures HandleBag(a + b) == HandleBag(a) + HandleBag(b)
  {
    if a == [] {
      assert a + b == b;
    } else {
      assert (a + b)[0] == a[0];
      assert (a + b)[1..] == a[1..] + b;
      HandleBagConcat(a[1..], b);
      BagRegroup(multiset(Ids(a[0])), HandleBag(a[1..]), HandleBag(b));
    }
  }

  lemma HandleBagSingle(h: Handle)
    ensures HandleBag([h]) == multiset(Ids(h))
  {
    assert [h][1..] == [];
  }

  /** The bag of handle `i` separated from those before and after it. */
  lemma HandleBagSplit(hs: seq<Handle>, i: nat)
    requires i < |hs|
    ensures HandleBag(hs) == HandleBag(hs[..i]) + multiset(Ids(hs[i])) + HandleBag(hs[i + 1..])
  {
    var pre, mid, post := hs[..i], [hs[i]], hs[i + 1..];
    assert hs == pre + (mid + post);
    var a, m, b := HandleBag(pre), multiset(Ids(hs[i])), HandleBag(post);
    HandleBagConcat(pre, mid + post);
    HandleBagConcat(mid, post);
    HandleBagSingle(hs[i]);
    assert HandleBag(hs) == a + (m + b);
    BagRegroup(a, m, b);
  }

  lemma HandleBagRemove(hs: seq<Handle>, i: nat)
    requires i < |hs|
    ensures HandleBag(hs) == HandleBag(hs[..i] + hs[i + 1..]) + multiset(Ids(hs[i]))
  {
    HandleBagSplit(hs, i);
    HandleBagConcat(hs[..i], hs[i + 1..]);
    BagRegroup(HandleBag(hs[..i]), multiset(Ids(hs[i])), HandleBag(hs[i + 1..]));
  }

  lemma HandleBagAppend(hs: seq<Handle>, h: Handle)
    ensures HandleBag(hs + [h]) == HandleBag(hs) + multiset(Ids(h))
  {
    HandleBagConcat(hs, [h]);
    HandleBagSingle(h);
  }

  /** Every box a handle owns is allocated and off the stack. */
  lemma HandlesOffStack<T>(sys: System<T>, i: nat)
    requires StackWF(sys.shared) && Owned(sys) == multiset(sys.shared.heap.Keys)
    requires i < |sys.handles|
    ensures forall x :: x in Ids(sys.handles[i]) ==> x in sys.shared.heap && x !in Chain(sys.shared)
    ensures CacheOffStack(sys.shared, sys.handles[i])
  {
    var h := sys.handles[i];
    var e := h.(retired := [], cache := []);
    HandleBagUpdate(sys.handles, i, e);
    assert Ids(e) == [];
    assert HandleBag(sys.handles[i := e]) + multiset(Ids(h)) == HandleBag(sys.handles);
    forall x | x in Ids(h)
      ensures x in sys.shared.heap && x !in Chain(sys.shared)
    {
      assert multiset(Ids(h))[x] >= 1;
      assert (HandleBag(sys.handles[i := e]) + multiset(Ids(h)))[x] == HandleBag(sys.handles)[x];
      assert Owned(sys)[x] >= 1 + multiset(Chain(sys.shared))[x];
    }
    forall k | 0 <= k < |h.cache|
      ensures h.cache[k] in sys.shared.heap && h.cache[k] !in Chain(sys.shared)
    {
      assert h.cache[k] in Ids(h);
    }
  }

  /** `LockFreeStacc::new` as a whole structure: the shared stack and its first handle. */
  function SysNew<T>(): System<T>
  {
    var init := New<T>();
    System(init.0, [init.1])
  }

  /** A new stack with its first handle satisfies the ownership invariant
      and holds no value. */
  lemma SysNewInv<T>(sys: System<T>)
    requires sys == SysNew<T>()
    ensures Inv(sys) && |sys.handles| == 1 && Contents(sys) == []
  {
    assert HandleBag(sys.handles) == multiset{};
  }

  /** Ownership after a push that reused a box from handle `i`'s cache. */
  lemma ReusedOwnership<T>(sys: System<T>, i: nat, sNew: Shared<T>, hNew: Handle)
    requires StackWF(sys.shared) && Owned(sys) == multiset(sys.shared.heap.Keys)
    requires StackWF(sNew) && sNew.top.Some? && Chain(sNew) == [sNew.top.value] + Chain(sys.shared)
    requires sNew.stillHazard == sys.shared.stillHazard && sNew.heap.Keys == sys.shared.heap.Keys
    requires i < |sys.handles| && Ids(sys.handles[i]) == Ids(hNew) + [sNew.top.value]
    ensures Owned(System(sNew, sys.handles[i := hNew])) == multiset(sNew.heap.Keys)
  {
    var top := sNew.top.value;
    var hs' := sys.handles[i := hNew];
    var chain := multiset(Chain(sys.shared));
    var still := multiset(sNew.stillHazard);
    HandleBagShrink(sys.handles, i, hNew, multiset{top});
    calc {
      Owned(System(sNew, hs'));
      multiset(Chain(sNew)) + still + HandleBag(hs');
      { assert multiset(Chain(sNew)) == multiset{top} + chain; }
      chain + still + (HandleBag(hs') + multiset{top});
      chain + still + HandleBag(sys.handles);
    }
  }

  /** Ownership after a push that allocated the fresh box `top`. */
  lemma FreshOwnership<T>(sys: System<T>, sNew: Shared<T>)
    requires StackWF(sys.shared) && Owned(sys) == multiset(sys.shared.heap.Keys)
    requires StackWF(sNew) && sNew.top.Some? && Chain(sNew) == [sNew.top.value] + Chain(sys.shared)
    requires sNew.stillHazard == sys.shared.stillHazard
    requires sNew.top.value !in sys.shared.heap.Keys && sNew.heap.Keys == sys.shared.heap.Keys + {sNew.top.value}
    ensures Owned(System(sNew, sys.handles)) == multiset(sNew.heap.Keys)
  {
    var top := sNew.top.value;
    var chain := multiset(Chain(sys.shared));
    assert multiset(Chain(sNew)) == multiset{top} + chain;
    BagRotate(multiset{top}, chain, multiset(sys.shared.stillHazard), HandleBag(sys.handles));
    BagAddKey(sys.shared.heap.Keys, top);
  }

  lemma PushKeepsOwnership<T>(sys: System<T>, i: nat, x: T)
    requires StackWF(sys.shared) && Owned(sys) == multiset(sys.shared.heap.Keys)
    requires i < |sys.handles| && CacheOffStack(sys.shared, sys.handles[i])
    ensures var (s', h') := Push(sys.shared, sys.handles[i], x);
            Owned(System(s', sys.handles[i := h'])) == multiset(s'.heap.Keys)
  {
    var h := sys.handles[i];
    var r := Push(sys.shared, h, x);
    if |h.cache| > 0 {
      assert Ids(h) == Ids(r.1) + [r.0.top.value];
      ReusedOwnership(sys, i, r.0, r.1);
    } else {
      assert sys.handles[i := r.1] == sys.handles;
      FreshOwnership(sys, r.0);
    }
  }

  /** A push through handle `i` keeps the invariant and puts `x` on top. */
  function SysPush<T>(sys: System<T>, i: nat, x: T): (r: System<T>)
    requires Inv(sys) && i < |sys.handles|
    ensures Inv(r) && |r.handles| == |sys.handles|
    ensures Contents(r) == [x] + Contents(sys)
  {
    HandlesOffStack(sys, i);
    var (s', h') := Push(sys.shared, sys.handles[i], x);
    PushKeepsOwnership(sys, i, x);
    NumberedUpdate(sys.handles, sys.shared.counter, i, h');
    ModStep(|Chain(sys.shared)|);
    System(s', sys.handles[i := h'])
  }

  lemma PopKeepsOwnership<T>(sys: System<T>, i: nat)
    requires StackWF(sys.shared) && Owned(sys) == multiset(sys.shared.heap.Keys)
    requires i < |sys.handles| && sys.shared.top.Some?
    requires Pop(sys.shared, sys.handles[i]).Return?
    ensures var (s', h', item) := Pop(sys.shared, sys.handles[i]).value;
            Owned(System(s', sys.handles[i := h'])) == multiset(s'.heap.Keys)
  {
    var s := sys.shared;
    var h := sys.handles[i];
    var (s', h', item) := Pop(s, h).value;
    var hs' := sys.handles[i := h'];
    HandleBagGrow(sys.handles, i, h', multiset{s.top.value});
    assert Chain(s) == [s.top.value] + Chain(s');
    assert multiset(Chain(s)) == multiset{s.top.value} + multiset(Chain(s'));
    assert s'.heap == s.heap && s'.stillHazard == s.stillHazard;
  }

  /** A pop from a non-empty stack keeps the invariant and takes the top
      payload off. */
  lemma PopKeepsInv<T>(sys: System<T>, i: nat)
    requires Inv(sys) && i < |sys.handles| && sys.shared.top.Some?
    ensures sys.handles[i].threadNumber < MAX_THREADS
    ensures var (s', h', item) := Pop(sys.shared, sys.handles[i]).value;
            var r := System(s', sys.handles[i := h']);
            && Inv(r) && item.Some?
            && Contents(sys) == [item.value] + Contents(r)
  {
    var h := sys.handles[i];
    assert h.threadNumber < MAX_THREADS;
    var out := Pop(sys.shared, h).value;
    var s', h' := out.0, out.1;
    HazardsClearSet(sys.shared.hazards, h.threadNumber);
    assert s'.hazards == sys.shared.hazards[h.threadNumber := None];
    PopKeepsOwnership(sys, i);
    NumberedUpdate(sys.handles, sys.shared.counter, i, h');
    ModStep(|Chain(sys.shared)|);
    WalkShape(Links(sys.shared.heap), sys.shared.top, Chain(sys.shared));
    ValuesTail(sys.shared.heap, Chain(sys.shared), Chain(s'));
  }

  /** A pop through handle `i` keeps the invariant, never panics, and takes
      the top payload off, or reports empty and changes nothing. */
  function SysPop<T>(sys: System<T>, i: nat): (r: (System<T>, Option<T>))
    requires Inv(sys) && i < |sys.handles|
    ensures Inv(r.0) && |r.0.handles| == |sys.handles|
    ensures r.1.None? <==> Contents(sys) == []
    ensures r.1.None? ==> r.0 == sys
    ensures r.1.Some? ==> Contents(sys) == [r.1.value] + Contents(r.0)
  {
    if sys.shared.top.None? then
      (sys, None)
    else
      PopKeepsInv(sys, i);
      var (s', h', item) := Pop(sys.shared, sys.handles[i]).value;
      (System(s', sys.handles[i := h']), item)
  }

  /** Adding the handle a successful clone returns keeps the invariant and
      the stack. */
  lemma CloneKeepsInv<T>(sys: System<T>, sNew: Shared<T>, hNew: Handle)
    requires Inv(sys) && Clone(sys.shared) == Return((sNew, hNew))
    ensures Inv(System(sNew, sys.handles + [hNew])) && Contents(System(sNew, sys.handles + [hNew])) == Contents(sys)
  {
    var r := System(sNew, sys.handles + [hNew]);
    assert sNew == sys.shared.(counter := sys.shared.counter + 1);
    assert Ids(hNew) == [];
    HandleBagAppend(sys.handles, hNew);
    assert HandleBag(r.handles) == HandleBag(sys.handles);
    NumberedAppend(sys.handles, sys.shared.counter, hNew);
    assert Chain(sNew) == Chain(sys.shared);
    assert Owned(r) == Owned(sys);
  }

  /** A clone (with the participant bound checked) keeps the invariant; it
      panics exactly when all 32 hazard slots are taken. */
  function SysClone<T>(sys: System<T>, i: nat): (r: Outcome<System<T>>)
    requires Inv(sys) && i < |sys.handles|
    ensures r.Panic? <==> sys.shared.counter >= MAX_THREADS
    ensures r.Return? ==> Inv(r.value) && |r.value.handles| == |sys.handles| + 1
    ensures r.Return? ==> Contents(r.value) == Contents(sys)
  {
    match Clone(sys.shared)
    case Panic => Panic
    case Return((s', h')) =>
      CloneKeepsInv(sys, s', h');
      Return(System(s', sys.handles + [h']))
  }

  /** Freeing boxes that are off the stack leaves the stack as it was. */
  lemma FreeOffStack<T>(s: Shared<T>, sNew: Shared<T>, gone: set<NodeId>)
    requires StackWF(s) && forall x :: x in gone ==> x !in Chain(s)
    requires sNew.top == s.top && sNew.heap == s.heap - gone && sNew.unused == s.unused
    requires |sNew.hazards| == |s.hazards|
    ensures StackWF(sNew) && Chain(sNew) == Chain(s)
  {
    LinksRemove(s.heap, gone);
    WalkForget(Links(s.heap), s.top, Chain(s), gone);
  }

  /** Ownership after handle `i` hands `appended` to the shared list and
      frees `freed`. */
  lemma DroppedOwnership<T>(sys: System<T>, i: nat, sNew: Shared<T>, appended: seq<NodeId>, freed: seq<NodeId>)
    requires StackWF(sys.shared) && Owned(sys) == multiset(sys.shared.heap.Keys)
    requires i < |sys.handles|
    requires multiset(appended) + multiset(freed) == multiset(Ids(sys.handles[i]))
    requires StackWF(sNew) && Chain(sNew) == Chain(sys.shared)
    requires sNew.stillHazard == sys.shared.stillHazard + appended
    requires sNew.heap.Keys == sys.shared.heap.Keys - Elems(freed)
    ensures Owned(System(sNew, sys.handles[..i] + sys.handles[i + 1..])) == multiset(sNew.heap.Keys)
    ensures multiset(freed) + multiset(sNew.heap.Keys) == multiset(sys.shared.heap.Keys)
  {
    var rest := sys.handles[..i] + sys.handles[i + 1..];
    HandleBagRemove(sys.handles, i);
    var own := Owned(System(sNew, rest));
    var chain := multiset(Chain(sys.shared));
    var still := multiset(sys.shared.stillHazard);
    calc {
      own + multiset(freed);
      chain + (still + multiset(appended)) + HandleBag(rest) + multiset(freed);
      chain + still + (HandleBag(rest) + (multiset(appended) + multiset(freed)));
      chain + still + HandleBag(sys.handles);
    }
    MultisetMinusSet(own, freed, sys.shared.heap.Keys);
  }

  lemma DropKeepsOwnership<T>(sys: System<T>, i: nat)
    requires StackWF(sys.shared) && Owned(sys) == multiset(sys.shared.heap.Keys)
    requires i < |sys.handles|
    requires DropHandle(sys.shared, sys.handles[i]).Return?
    ensures var (s', freed) := DropHandle(sys.shared, sys.handles[i]).value;
            && StackWF(s') && Chain(s') == Chain(sys.shared)
            && Owned(System(s', sys.handles[..i] + sys.handles[i + 1..])) == multiset(s'.heap.Keys)
            && multiset(freed) + multiset(s'.heap.Keys) == multiset(sys.shared.heap.Keys)
  {
    var s := sys.shared;
    var h := sys.handles[i];
    var r := DropHandle(s, h).value;
    var s' := r.0;
    var freed := r.1;
    var appended := s'.stillHazard[|s.stillHazard|..];
    assert s'.stillHazard == s.stillHazard + appended;
    HandlesOffStack(sys, i);
    assert forall x :: x in Elems(freed) ==> x !in Chain(s) by {
      forall x | x in Elems(freed) ensures x !in Chain(s) {
        assert multiset(freed)[x] >= 1;
        assert multiset(Ids(h))[x] >= 1;
      }
    }
    FreeOffStack(s, s', Elems(freed));
    DroppedOwnership(sys, i, s', appended, freed);
  }

  /** Dropping handle `i` keeps the invariant; the boxes it frees and the
      boxes left allocated together are the boxes allocated before. */
  function SysDropHandle<T>(sys: System<T>, i: nat): (r: (System<T>, seq<NodeId>))
    requires Inv(sys) && i < |sys.handles|
    ensures Inv(r.0) && |r.0.handles| == |sys.handles| - 1
    ensures multiset(r.1) + multiset(r.0.shared.heap.Keys) == multiset(sys.shared.heap.Keys)
    ensures Contents(r.0) == Contents(sys)
  {
    DropKeepsInv(sys, i);
    var (s', freed) := DropHandle(sys.shared, sys.handles[i]).value;
    (System(s', sys.handles[..i] + sys.handles[i + 1..]), freed)
  }

  /** Dropping handle `i` keeps the invariant and the stack. */
  lemma DropKeepsInv<T>(sys: System<T>, i: nat)
    requires Inv(sys) && i < |sys.handles|
    ensures sys.handles[i].threadNumber < MAX_THREADS
    ensures var (s', freed) := DropHandle(sys.shared, sys.handles[i]).value;
            var r := System(s', sys.handles[..i] + sys.handles[i + 1..]);
            && Inv(r)
            && multiset(freed) + multiset(s'.heap.Keys) == multiset(sys.shared.heap.Keys)
            && Contents(r) == Contents(sys)
  {
    var h := sys.handles[i];
    assert h.threadNumber < MAX_THREADS;
    DropKeepsOwnership(sys, i);
    NumberedRemove(sys.handles, sys.shared.counter, i);
  }

  /** With no handle left, the boxes handed over and the boxes on the stack
      are all the allocated boxes. */
  lemma LastDropFreesAll<T>(sys: System<T>)
    requires Inv(sys) && sys.handles == []
    ensures multiset(sys.shared.stillHazard + Chain(sys.shared)) == multiset(sys.shared.heap.Keys)
  {
    assert HandleBag(sys.handles) == multiset{};
  }

  /** Tearing the structure down, every handle dropped and then the shared
      part, frees every allocated box exactly once. */
  method Teardown<T>(sys: System<T>) returns (freed: seq<NodeId>)
    requires Inv(sys)
    ensures multiset(freed) == multiset(sys.shared.heap.Keys)
  {
    var cur := sys;
    freed := [];
    while |cur.handles| > 0
      invariant Inv(cur)
      invariant multiset(freed) + multiset(cur.shared.heap.Keys) == multiset(sys.shared.heap.Keys)
      decreases |cur.handles|
    {
      var (next, f) := SysDropHandle(cur, |cur.handles| - 1);
      freed := freed + f;
      cur := next;
    }
    var rest := DropShared(cur.shared);
    LastDropFreesAll(cur);
    freed := freed + rest;
  }

  /** Pushes `xs` in order through handle `i`. */
  function SysPushAll<T>(sys: System<T>, i: nat, xs: seq<T>): (r: System<T>)
    requires Inv(sys) && i < |sys.handles|
    ensures Inv(r) && |r.handles| == |sys.handles|
    ensures Contents(r) == Reverse(xs) + Contents(sys)
    decreases |xs|
  {
    if xs == [] then sys
    else
      var first := SysPush(sys, i, xs[0]);
      var r := SysPushAll(first, i, xs[1..]);
      PushedOnTop(xs, Contents(r), Contents(first), Contents(sys));
      r
  }

  /** Pops `k` times through handle `i`, collecting the results: they are
      what `k` pops from the value list return, and the values left are what
      those pops leave. */
  function SysPopN<T>(sys: System<T>, i: nat, k: nat): (r: (System<T>, seq<Option<T>>))
    requires Inv(sys) && i < |sys.handles|
    ensures Inv(r.0) && |r.0.handles| == |sys.handles|
    ensures r.1 == Pops(Contents(sys), k)
    ensures Contents(r.0) == Remains(Contents(sys), k)
    decreases k
  {
    if k == 0 then (sys, [])
    else
      var p := SysPop(sys, i);
      var q := SysPopN(p.0, i, k - 1);
      PopStep(k, Contents(sys), p.1, Contents(p.0));
      (q.0, [p.1] + q.1)
  }

  /** Last in, first out: pushing `xs` and then popping as many times gives
      `xs` back in reverse, and leaves the stack as it was. */
  lemma Lifo<T>(sys: System<T>, i: nat, xs: seq<T>)
    requires Inv(sys) && i < |sys.handles|
    ensures var (r, popped) := SysPopN(SysPushAll(sys, i, xs), i, |xs|);
            && popped == Somes(Reverse(xs))
            && Contents(r) == Contents(sys)
  {
    var pushed := SysPushAll(sys, i, xs);
    PopsShape(Contents(pushed), |xs|);
    assert Contents(pushed)[..|xs|] == Reverse(xs);
    assert Contents(pushed)[|xs|..] == Contents(sys);
  }

  /** Pushing `xs` on an empty stack and popping once more than pushed gives
      `xs` back in reverse and then `None`. */
  lemma DrainAfterPushes<T>(sys: System<T>, i: nat, xs: seq<T>)
    requires Inv(sys) && i < |sys.handles| && Contents(sys) == []
    ensures SysPopN(SysPushAll(sys, i, xs), i, |xs| + 1).1 == Somes(Reverse(xs)) + [None]
  {
    var pushed := SysPushAll(sys, i, xs);
    assert Contents(pushed) == Reverse(xs);
    PopsShape(Contents(pushed), |xs| + 1);
    assert Nones<T>(1) == [None];
  }

  /** The `single` test: push 0, 1, 2, 3 on an empty stack (as `SysNew`
      returns it), then five pops
      give 3, 2, 1, 0 and empty. */
  lemma SingleTest(sys: System<int>, xs: seq<int>)
    requires Inv(sys) && |sys.handles| == 1 && Contents(sys) == [] && xs == [0, 1, 2, 3]
    ensures SysPopN(SysPushAll(sys, 0, xs), 0, |xs| + 1).1
            == [Some(3), Some(2), Some(1), Some(0), None]
  {
    DrainAfterPushes(sys, 0, xs);
    SingleTestValues(xs);
  }

  lemma SingleTestValues(xs: seq<int>)
    requires xs == [0, 1, 2, 3]
    ensures Somes(Reverse(xs)) + [None] == [Some(3), Some(2), Some(1), Some(0), None]
  {
    assert Reverse(xs) == [3, 2, 1, 0];
    assert Somes(Reverse(xs)) == [Some(3), Some(2), Some(1), Some(0)];
  }

  /** As written, a push that reuses a cached box publishes the box's old
      payload: the next pop returns the stale value, whatever was pushed. */
  lemma StalePayloadAsWritten<T>(sys: System<T>, i: nat, x: T)
    requires Inv(sys) && i < |sys.handles| && |sys.handles[i].cache| > 0
    requires StackWF(PushAsWritten(sys.shared, sys.handles[i], x).0)
    ensures var h := sys.handles[i];
            var (s', h') := PushAsWritten(sys.shared, h, x);
            Pop(s', h').Return?
            && Pop(s', h').value.2 == Some(sys.shared.heap[h.cache[|h.cache| - 1]].data)
  {
    HandlesOffStack(sys, i);
    var h := sys.handles[i];
    assert h.cache[|h.cache| - 1] in sys.shared.heap;
  }

  /** A concrete instance: a handle caching a box that held 7 pushes 99,
      and the following pop returns 7. */
  lemma StalePayloadExample()
    ensures var s: Shared<int> := Shared(None, Nones(MAX_THREADS), [], 1, 0, map[0 := Node(7, None)], 1);
            var h := Handle([], 0, [0]);
            var (s', h') := PushAsWritten(s, h, 99);
            && StackWF(s') && Pop(s', h').Return?
            && Pop(s', h').value.2 == Some(7)
            && Pop(s', h').value.0.top == None
  {
    var s: Shared<int> := Shared(None, Nones(MAX_THREADS), [], 1, 0, map[0 := Node(7, None)], 1);
    var h := Handle([], 0, [0]);
    var (s', h') := PushAsWritten(s, h, 99);
    var links := Links(s'.heap);
    assert links == map[0 := None];
    assert 0 in links && links[0] == None;
    var p: Option<NodeId> := Some(0);
    assert Walk(links - {0}, links[0]) == Some([]);
    assert Walk(links, p) == Some([0] + []);
  }

  /** The corrected push installs the pushed payload: a push and a pop
      through the same handle return exactly what was pushed. */
  lemma PushThenPop<T>(sys: System<T>, i: nat, x: T)
    requires Inv(sys) && i < |sys.handles|
    ensures var (r, item) := SysPop(SysPush(sys, i, x), i);
            item == Some(x) && Contents(r) == Contents(sys)
  {
    var pushed := SysPush(sys, i, x);
    assert Contents(pushed) == [x] + Contents(sys);
  }

  /** `k` clones taken as written from the same shared part. */
  function CloneManyAsWritten<T>(s: Shared<T>, k: nat): (r: (Shared<T>, seq<Handle>))
    ensures r.0 == s.(counter := s.counter + k) && |r.1| == k
    ensures forall j :: 0 <= j < k ==> r.1[j] == Handle([], s.counter + j, [])
    decreases k
  {
    if k == 0 then (s, [])
    else
      var (s1, hs) := CloneManyAsWritten(s, k - 1);
      var (s2, h) := CloneAsWritten(s1);
      (s2, hs + [h])
  }

  /** As written, nothing stops a 33rd handle: the creator has number 0,
      the 32nd clone gets number 32, and its first pop indexes past the
      32-slot hazard table and panics. */
  lemma ThirtyThirdHandlePanicsAsWritten<T>()
    ensures var (s0, h0) := New<T>();
            var (s, hs) := CloneManyAsWritten(s0, MAX_THREADS);
            && h0.threadNumber == 0
            && (forall j :: 0 <= j < MAX_THREADS - 1 ==> hs[j].threadNumber < MAX_THREADS)
            && hs[MAX_THREADS - 1].threadNumber == MAX_THREADS
            && StackWF(s) && Pop(s, hs[MAX_THREADS - 1]).Panic?
  {
    var (s0, h0) := New<T>();
    var (s, hs) := CloneManyAsWritten(s0, MAX_THREADS);
    assert Links(s.heap) == Links(s0.heap);
  }

  /** With the bound checked at clone time, the 32nd clone itself panics and
      every handle that exists can pop without panicking. */
  lemma CloneBoundChecked<T>(sys: System<T>, i: nat)
    requires Inv(sys) && i < |sys.handles|
    ensures sys.shared.counter == MAX_THREADS ==> SysClone(sys, i).Panic?
    ensures Pop(sys.shared, sys.handles[i]).Return?
  {
  }
}

=== FILE: wrappers.dfy ===
/** Failure-carrying result types shared by every component model. */
module Wrappers {

  /** Rust's `Option<T>`: a possibly-absent value, or a nullable pointer. */
  datatype Option<+T> = None | Some(value: T)

  /** The outcome of one operation: it returns normally, or the Rust code panics
      (an out-of-bounds index or a failed `assert_eq!`). */
  datatype Outcome<+R> = Return(value: R) | Panic
}

/** Sequence helpers used to state LIFO and FIFO orders. */
module Sequences {
  import opened Wrappers

  /** `xs` back to front. */
  function Reverse<T>(xs: seq<T>): (r: seq<T>)
    ensures |r| == |xs|
    ensures forall i :: 0 <= i < |xs| ==> r[i] == xs[|xs| - 1 - i]
  {
    if xs == [] then [] else Reverse(xs[1..]) + [xs[0]]
  }

  lemma ReverseSnoc<T>(xs: seq<T>, x: T)
    ensures Reverse(xs + [x]) == [x] + Reverse(xs)
  {
  }

  lemma ReverseCons<T>(x: T, xs: seq<T>)
    ensures Reverse([x] + xs) == Reverse(xs) + [x]
  {
  }

  /** Each element wrapped in `Some`: what a run of successful pops returns. */
  function Somes<T>(xs: seq<T>): (r: seq<Option<T>>)
    ensures |r| == |xs|
    ensures forall i :: 0 <= i < |xs| ==> r[i] == Some(xs[i])
  {
    seq(|xs|, i requires 0 <= i < |xs| => Some(xs[i]))
  }

  /** `k` copies of `None`. */
  function Nones<T>(k: nat): (r: seq<Option<T>>)
    ensures |r| == k
    ensures forall i :: 0 <= i < k ==> r[i] == None
  {
    seq(k, _ => None)
  }

  /** Pushing `xs[0]` and then the rest of `xs` onto a stack whose contents
      are listed top first puts `xs` on top in reverse. */
  lemma PushedOnTop<T>(xs: seq<T>, after: seq<T>, mid: seq<T>, before: seq<T>)
    requires xs != [] && after == Reverse(xs[1..]) + mid && mid == [xs[0]] + before
    ensures after == Reverse(xs) + before
  {
  }

  /** What `k` pops from a stack listing `c` top first return: its values
      in order, then `None` for each pop past the bottom. */
  function Pops<T>(c: seq<T>, k: nat): seq<Option<T>>
    decreases k
  {
    if k == 0 then []
    else if c == [] then [None] + Pops(c, k - 1)
    else [Some(c[0])] + Pops(c[1..], k - 1)
  }

  /** What is left of `c` after `k` pops. */
  function Remains<T>(c: seq<T>, k: nat): seq<T> {
    if k <= |c| then c[k..] else []
  }

  /** One pop turning `c` into `c1` and returning `item`, followed by
      `k - 1` more pops. */
  lemma PopStep<T>(k: nat, c: seq<T>, item: Option<T>, c1: seq<T>)
    requires k > 0
    requires (item.None? <==> c == []) && (item.None? ==> c1 == c) && (item.Some? ==> c == [item.value] + c1)
    ensures Pops(c, k) == [item] + Pops(c1, k - 1)
    ensures Remains(c, k) == Remains(c1, k - 1)
  {
    if item.Some? {
      assert c[1..] == c1;
      if k <= |c| {
        assert c[k..] == c1[k - 1..];
      }
    }
  }

  /** `k` pops return the first `k` values, padded with `None` once the
      stack runs dry. */
  lemma {:induction false} PopsShape<T>(c: seq<T>, k: nat)
    ensures k <= |c| ==> Pops(c, k) == Somes(c[..k])
    ensures k > |c| ==> Pops(c, k) == Somes(c) + Nones(k - |c|)
    decreases k
  {
    if k > 0 {
      if c == [] {
        PopsShape(c, k - 1);
        assert Pops(c, k) == [None] + Nones(k - 1);
      } else {
        PopsShape(c[1..], k - 1);
        if k <= |c| {
          assert c[1..][..k - 1] == c[..k][1..];
        } else {
          assert Somes(c) == [Some(c[0])] + Somes(c[1..]);
          assert Nones<T>(k - |c|) == Nones(k - 1 - |c[1..]|);
        }
      }
    }
  }
}

/** Rust's `usize` on a 64-bit target, with the wrapping arithmetic of the
    atomic `fetch_add`/`fetch_sub` operations. */
module Usize {
  const USIZE: nat := 0x1_0000_0000_0000_0000

  function WrappingAdd(a: nat, b: nat): nat { (a + b) % USIZE }
  function WrappingSub(a: nat, b: nat): nat { (a - b) % USIZE }

  /** Counting modulo 2^64 agrees with wrapping increments and decrements. */
  lemma ModStep(a: nat)
    ensures WrappingAdd(a % USIZE, 1) == (a + 1) % USIZE
    ensures a > 0 ==> WrappingSub(a % USIZE, 1) == (a - 1) % USIZE
  {
  }
}
